=== FILE: README.md ===
# xlaudio: a Dafny model of the audio pipeline core

This project models the core of `xlaudio.c`, the audio library for the MSP432 with the BOOSTXL-AUDIO board. The library moves 16-bit samples from the ADC to the DAC8311 and runs a user callback on them in one of three modes:

- **polling**: a busy-wait loop, one sample at a time;
- **interrupt**: the ADC interrupt, one sample per Timer_A period;
- **block mode**: uDMA ping-pong transfers into two ADC arrays and two DAC arrays, drained one sample per timer tick.

The model has six modules:

- `Words`: `uint16_t` and `uint32_t` as subset types of `int`. It writes out unsigned 32-bit wrap-around and the conversion of `uint32_t` to a two's complement `int`.
- `Config`: the buffer-length table of `configureBuffer` and the Timer_A period table of `configureSampleclock`.
- `Handshake`: the block-mode ping-pong handshake as pure state transitions.
  - Each event is one function over the shared globals: a DMA completion, a timer tick, one pass of the consumer loop.
  - A hardware layer adds the uDMA channel's alternate-select attribute.
  - On top sit event traces and the lemmas about them: the invariants every interleaving keeps, lock-step processing, what a backlog does, and when the consumer may touch the DAC array being drained.
- `Sorting`: `comp_uint32` and `median`.
  - `qsort` with `comp_uint32` is modelled as an in-place insertion sort with the same comparator.
  - It is proved against the functional `CompSort`.
  - The rank lemmas give the median its outlier tolerance.
- `Profiler`: `perfLap` as a class holding the `static previousSnap`, plus the measurement loops and `xlaudio_measurePerfSample`.
- `Pipeline`: the globals as a class `XlAudio`.
  - The class holds the four sample arrays and the role flags, the active DAC buffer and its index, `glbBUFLEN`, `glbIO` and the PWM configuration.
  - It also holds the two pieces of DMA channel 7 state that the code depends on: the alternate-select attribute and the number of transfers the current descriptor has done. A transfer method writes each conversion result into the ADC array being filled.
  - Every interrupt handler, loop body and configuration function is a method. The handlers and the consumer loop body are proved against the `Handshake` functions; the configuration methods are proved against the `Config` tables and the literal role values of `initADC`.
  - `BootDma` connects the two layers: `xlaudio_init_dma` followed by the run dispatch leaves the handshake in `Handshake.Start`.
  - `xlaudio_measurePerfBuffer` is a method too.

Twelve methods of `XlAudio` are the events of the model: `InitPoll`, `InitIntr`, `InitDma`, `BootDma`, `StartRun`, `ConsumerPass`, `PollPass`, `AdcInterrupt`, `TimerTick`, `DmaComplete`, `DmaTransfer` and `MeasurePerfBuffer`. Each event is atomic, and any sequence of event calls stands for an interleaving of the interrupt handlers with the foreground code. A call of `blockingerror` sets `faulted`. Once it is set, every event leaves the state unchanged: the processor spins in the error loop and never returns.

The other methods are steps inside those events and are not called on their own: `ConfigureBuffer`, `ConfigureSampleclock`, `InitMic`, `InitAdc`, `ResetDma`, `ResetRoles`, `ApplyBlock`, `ProcessSample`, `ClearBytes`, `TimedTrials` and `TimeBlockCallback`. They do not test `faulted`; the event that calls them does.

The model follows the code in these places, where the code behaves differently from what its names, comments and table layout suggest:

- **Sample-rate order.** The period table `6000, 5000, ..., 1000` decreases. A lower rate index therefore selects a longer period and a LOWER sample rate, not a higher one (`Config.TimerPeriodDecreasing`).
- **First buffer.**
  - `xlaudio_run` sets `glbADCPPRead = PING` after `initADC` set the write label to PING and the read label to PONG.
  - The completion handler records the label of the buffer that has just completed.
  - So the first completed buffer (ping) is never handed to the callback. From run start, whatever ticks and consumer passes precede the first completion, and when the consumer loop runs at least once between every two completions, `k` completions give `k - 1` callback runs on Pong, Ping, Pong, ..., whatever timer ticks and extra consumer passes fall in between (`Handshake.LockstepFromRunStart`).
  - From then on, processing is exactly once per completed buffer, on alternating labels (`Handshake.LockstepFromCaughtUp`).
- **Backlog.** The consumer compares two one-bit labels. With `k` completions between two consumer passes, each completion after the timer ticks that fill its buffer, it processes nothing when `k` is even and only the most recently completed buffer when `k` is odd (`Handshake.Backlog`).
- **Playback side.** Nothing in the consumer loop checks which DAC array the timer handler is draining.
  - When two completions arrive with no timer tick between them, the consumer is handed the DAC array being drained (`Handshake.UncoupledDrainClash`).
  - The code relies on the drain and the capture running in phase: both start at index 0, the same timer clocks both, and the drain wraps in the sample period whose conversion completes a capture buffer. `Handshake.PhasedRun` models that schedule, with the tick before the completion in that period. Under it, the consumer never rewrites the DAC array being drained (`Handshake.PhasedRunKeepsDacSafe`, `Handshake.ConsumerAvoidsDraining`).
- **Clearing in `xlaudio_measurePerfBuffer`.** `memset(glbPingADC, 0, MAXPPLEN)` counts bytes. It clears the first 64 of the 128 samples (`Pipeline.MemsetClearsLowerHalf`), and the model does exactly that.
- **Table indices.** Neither `configureBuffer` nor `configureSampleclock` checks its enumerator. An out-of-range index reads past the table, so the valid range is a precondition here.

The hardware and the user are parameters of the model:

- the Timer32 counter readings of `perfLap` are a sequence `readings`;
- the conversion result of the ADC is the argument `sample`, of the polling pass, of the ADC interrupt and of the DMA transfer;
- the pending-interrupt flag of the ADC is the argument `int0`;
- the callbacks are total functions. The block callback returns the new content of the DAC array it is given.

Calls into the driver library (GPIO, clock, ADC14, Timer_A, Timer32 start and stop) have no effect in the model. There are three exceptions:

- `DAC8311_updateDacOut`: its argument is appended to the trace `dacOut`;
- clearing the DMA channel's alternate-select attribute in `initADC` and arming both descriptors for `glbBUFLEN` transfers: they reset `dmaAlt` and `fillIndex`;
- `DMA_getChannelAttribute` in the completion handler: it reads `dmaAlt`.

## Model

| member | source | states |
|---|---|---|
| Words.Sub32 | xlaudio.c:607 | the unsigned difference of two `uint32_t` values: adding it back to the subtrahend gives the minuend modulo 2^32; it is the plain difference when no wrap occurs and the difference plus 2^32 otherwise |
| Words.ToInt32 | xlaudio.c:615 | the `int` that `comp_uint32` returns for a `uint32_t` difference lies in the 32-bit signed range and is congruent to it modulo 2^32 |
| Config.BufferLength | xlaudio.c:271-274 | every buffer-length enumerator selects a length between 8 and `MAXPPLEN` (128) that divides `MAXPPLEN` |
| Config.BufferLengthDoubles | xlaudio.c:271 | each buffer-length enumerator doubles the length of the previous one |
| Config.TimerPeriod | xlaudio.c:242-256 | every rate enumerator selects a Timer_A period between 1000 and 6000 cycles |
| Config.DutyCycle | xlaudio.c:259 | the duty cycle is positive and is half the period, rounded down |
| Config.TimerPeriodDecreasing | xlaudio.c:242-252 | the period table strictly decreases: a higher rate index gives a shorter period, so a lower index gives a lower sample rate |
| Handshake.Step | xlaudio.c:389-399 | a completion toggles the attribute and records the label of the array no longer being filled; ticks and consumer passes leave the attribute alone |
| Handshake.RunStart | xlaudio.c:348-353 | the roles at the start of the DMA loop (after `glbADCPPRead = PING` at line 573) satisfy the role invariant and, for a configured length, the drain bound |
| Handshake.OnDmaComplete | xlaudio.c:389-399 | the completion handler records PING when the alternate descriptor is selected and PONG otherwise, and changes nothing else |
| Handshake.OnTick | xlaudio.c:369-382 | a block-mode tick keeps the drain index inside the buffer, leaves the labels alone, wraps to 0 exactly at the end of the buffer and at the wrap makes the DAC array named by `glbDACPPWrite` active; the active array changes at no other tick |
| Handshake.ConsumedLabel | xlaudio.c:577-589 | a consumer pass runs the callback exactly when the recorded write label differs from the read label, and then on the write label |
| Handshake.OnConsume | xlaudio.c:577-589 | after a consumer pass the read and DAC-write labels equal the write label; without a new completion the pass changes nothing |
| Handshake.ConsumeIdempotent | xlaudio.c:575-591 | a second consumer pass with no completion in between does nothing |
| Handshake.StepsKeepInvariants | xlaudio.c:369-399 | completions, ticks and consumer passes each keep the DAC-write label equal to the read label and the drain index inside the buffer |
| Handshake.TickN | xlaudio.c:369-382 | any number of ticks leaves the labels and the buffer length unchanged |
| Handshake.TicksWithinBuffer | xlaudio.c:371-373 | ticks that stay inside the buffer only advance the drain index |
| Handshake.DrainPeriod | xlaudio.c:371-381 | from index 0, exactly `glbBUFLEN` ticks bring the index back to 0 and make the DAC array named by `glbDACPPWrite` active |
| Handshake.ConsumerAvoidsFilling | xlaudio.c:577-589 | under the handshake invariant, the consumer never runs the callback on the ADC array the DMA controller is filling |
| Handshake.RunKeepsInv | xlaudio.c:362-399 | every interleaving of completions, ticks and consumer passes keeps the handshake invariant |
| Handshake.Start | xlaudio.c:341-353 | at the start of the DMA loop the alternate-select attribute is clear, so the ping array is being filled, and both labels are PING; the state satisfies the capture-side invariant (for a configured length) and the playback-side one |
| Handshake.CompletionsAlternate | xlaudio.c:390-397 | two consecutive completions record opposite labels, whatever ticks and consumer passes fall between them |
| Handshake.QuietKeepsRecorded | xlaudio.c:362-387 | ticks and consumer passes leave the attribute and the recorded write label alone |
| Handshake.QuietWhileIdle | xlaudio.c:573-591 | before the first completion, ticks and consumer passes process nothing and keep all three labels on the array being filled |
| Handshake.FirstCompletionIgnored | xlaudio.c:573-589 | from run start, the first completion gives the consumer nothing to do |
| Handshake.PongProcessedFirst | xlaudio.c:573-589 | from run start, the first buffer handed to the callback is PONG |
| Handshake.ProcessedAppend | xlaudio.c:575-591 | the buffers processed by two event sequences in a row are those of the first followed by those of the second |
| Handshake.QuietWhileCaughtUp | xlaudio.c:575-591 | with no completion, ticks and consumer passes of a caught-up consumer process nothing and keep it caught up |
| Handshake.QuietWhilePending | xlaudio.c:575-591 | with one completion pending, any ticks and passes that include a pass process that buffer exactly once and leave the consumer caught up |
| Handshake.RoundFromCaughtUp | xlaudio.c:577-589 | from a caught-up state, one completion followed by ticks and at least one pass processes exactly the buffer that just completed |
| Handshake.LockstepFromCaughtUp | xlaudio.c:575-591 | when the consumer runs at least once between every two completions, whatever the ticks, the callback runs exactly once per completed buffer, on alternating labels |
| Handshake.LockstepFromRunStart | xlaudio.c:573-591 | from run start, after any ticks and passes before the first completion and then under the same schedule, `k` completions run the callback `k - 1` times, on Pong, Ping, Pong, ... |
| Handshake.TicksKeepLabels | xlaudio.c:369-382 | ticks leave the attribute and the three labels alone and process nothing |
| Handshake.ScheduleToggle | xlaudio.c:389-399 | `k` completions separated by ticks only toggle the attribute and the recorded label `k` times, leave the read labels alone and process nothing |
| Handshake.Backlog | xlaudio.c:577-589 | with `k` completions between consumer passes, each after the ticks of its buffer, nothing is processed when `k` is even and only the most recently completed buffer when `k` is odd |
| Handshake.ConsumerAvoidsDraining | xlaudio.c:577-589 | under the playback-side invariant, the consumer never rewrites the DAC array the timer handler is draining |
| Handshake.UncoupledDrainClash | xlaudio.c:371-381 | two completions with no tick between them satisfy the capture-side invariant yet hand the consumer the DAC array being drained |
| Handshake.Period | xlaudio.c:362-399 | one in-phase sample period advances the drain index as one tick does; a completion happens exactly when the drain wraps onto the array named by `glbDACPPWrite`, toggling the attribute, and otherwise the period is one tick |
| Handshake.PhasedRunKeepsDacSafe | xlaudio.c:362-399 | with drain and capture in phase, every interleaving of sample periods and consumer passes keeps the playback-side invariant |
| Sorting.CompUint32 | xlaudio.c:614-616 | the comparator's result is a 32-bit `int`; for values less than 2^31 apart its sign orders them (negative iff less, zero iff equal) |
| Sorting.CompUint32FarApart | xlaudio.c:614-616 | for values more than 2^31 apart the comparator reverses their order in both argument orders |
| Sorting.CompUint32HalfApart | xlaudio.c:614-616 | for values exactly 2^31 apart the comparator ranks each before the other |
| Sorting.Insert | xlaudio.c:619 | inserting one trial adds exactly that value to the multiset of trials |
| Sorting.CompSort | xlaudio.c:619 | sorting with `comp_uint32` permutes the 11 trials |
| Sorting.InsertAscending | xlaudio.c:619 | on pairwise-close values, inserting into an ascending sequence keeps it ascending |
| Sorting.CompSortAscending | xlaudio.c:619 | on pairwise-close values, sorting with `comp_uint32` yields the ascending permutation |
| Sorting.CountInPermutation | xlaudio.c:619 | the number of trials in a range does not depend on their order |
| Sorting.MedianRank | xlaudio.c:618-621 | at least 6 of the 11 trials are at most the median, and at least 6 are at least the median |
| Sorting.MedianOfMajority | xlaudio.c:618-621 | when 6 of the 11 trials are equal, the median is that value whatever the other 5 are |
| Sorting.SortInPlace | xlaudio.c:619 | the in-place sort leaves exactly the comparator sort of the original array |
| Sorting.InsertLast | xlaudio.c:619 | one pass of the inner loop inserts the next element into the sorted prefix and leaves the rest of the array alone |
| Sorting.Median | xlaudio.c:618-621 | `median` leaves the array sorted and returns element 5 of the sorted trials |
| Profiler.PairLaps | xlaudio.c:640-643 | a measurement loop stores 11 laps, each the wrapped difference of the two readings of one iteration |
| Profiler.OverheadCancels | xlaudio.c:653 | if 6 overhead trials took `o` cycles and 6 callback trials took `o + c`, the measurement is `c` whatever the outliers measured |
| Profiler.Profiler.constructor | xlaudio.c:604 | the static snapshot starts at zero |
| Profiler.Profiler.PerfLap | xlaudio.c:603-610 | `perfLap` returns the previous snapshot minus the current counter reading modulo 2^32, and stores the reading |
| Profiler.Profiler.Trials | xlaudio.c:640-643 | the overhead loop fills the array with the paired laps and leaves the last reading as the snapshot |
| Profiler.Profiler.MeasurePerfSample | xlaudio.c:633-654 | `xlaudio_measurePerfSample` returns the median of the callback laps minus the median of the overhead laps, modulo 2^32 |
| Pipeline.MemsetClearsLowerHalf | xlaudio.c:671-672 | clearing `MAXPPLEN` bytes zeroes the lower 64 samples of a 128-sample array and keeps the upper 64 |
| Pipeline.XlAudio.constructor | xlaudio.c:36-46 | power-on values: polling mode, length 0, all role flags PING, the pong DAC array active, index 0, zeroed arrays, attribute clear and no transfers done |
| Pipeline.XlAudio.ConfigureBuffer | xlaudio.c:269-283 | `glbBUFLEN` is set from the table, the first `glbBUFLEN` samples of all four arrays are zero, the rest and every other global are unchanged |
| Pipeline.XlAudio.ConfigureSampleclock | xlaudio.c:241-267 | the PWM period comes from the table with half of it as the duty cycle; nothing else changes |
| Pipeline.XlAudio.InitMic | xlaudio.c:66-78 | only the microphone and pin J1.2 are accepted; any other input is fatal |
| Pipeline.XlAudio.InitAdc | xlaudio.c:296-360 | an unknown input is fatal; in block mode the attribute is cleared, both descriptors are armed from the start, and the roles are reset to write PING, read PONG, drain from the start of the pong DAC array |
| Pipeline.XlAudio.ResetDma | xlaudio.c:341-353 | the block-mode part of `initADC`: attribute clear, no transfers done, roles reset; nothing else changes |
| Pipeline.XlAudio.ResetRoles | xlaudio.c:348-353 | write PING, read PONG, DAC-write PING, DAC-read PONG, the pong DAC array active from index 0; nothing else changes |
| Pipeline.XlAudio.InitPoll | xlaudio.c:457-481 | polling mode with length 1; fatal exactly for an unknown input |
| Pipeline.XlAudio.InitIntr | xlaudio.c:483-509 | interrupt mode with length 1 and the chosen sample clock; fatal exactly for an unknown input |
| Pipeline.XlAudio.InitDma | xlaudio.c:511-538 | block mode with the chosen length, cleared buffers and sample clock, and the roles of `initADC`; fatal for an unknown input; a state from which the drain stays inside the buffer |
| Pipeline.XlAudio.StartRun | xlaudio.c:540-595 | the run dispatch sets the read label to PING in block mode, is fatal in an unknown mode, and changes nothing in the other modes |
| Pipeline.XlAudio.BootDma | xlaudio.c:511-573 | `xlaudio_init_dma` and the run dispatch leave the handshake in its run-start state, which satisfies both invariants; an unknown input is fatal |
| Pipeline.XlAudio.ApplyBlock | xlaudio.c:579 | the DAC array receives the callback's output for the ADC array and its own previous content |
| Pipeline.XlAudio.ConsumerPass | xlaudio.c:577-589 | one pass changes the roles as `OnConsume` does (a consumer-pass `Step`) and rewrites only the DAC array of the label `ConsumedLabel` names, through the callback |
| Pipeline.XlAudio.ProcessSample | xlaudio.c:548-554 | the sample path stores the sample, stores the callback's result, and sends that result to the DAC |
| Pipeline.XlAudio.PollPass | xlaudio.c:545-555 | one polling iteration runs the sample path and changes nothing else |
| Pipeline.XlAudio.AdcInterrupt | xlaudio.c:410-431 | the ADC interrupt runs the sample path only when memory 0 has completed a conversion |
| Pipeline.XlAudio.TimerTick | xlaudio.c:362-387 | interrupt mode sends `glbPingDAC[0]`; block mode sends the current sample of the active DAC array and advances as `OnTick` (a tick `Step`); any other mode is fatal |
| Pipeline.XlAudio.DmaComplete | xlaudio.c:389-399 | the completion handler reads the attribute and changes the roles as `OnDmaComplete` does and nothing else |
| Pipeline.XlAudio.DmaTransfer | xlaudio.c:343-347 | a transfer writes the sample into the ADC array the attribute selects, at the fill position, and no other sample; after `glbBUFLEN` transfers it toggles the attribute and runs the completion handler, as `Handshake.Step` does for a completion |
| Pipeline.XlAudio.ClearBytes | xlaudio.c:671 | `memset` with a byte count zeroes half that many samples and keeps the rest |
| Pipeline.XlAudio.TimedTrials | xlaudio.c:673-677 | the timed loop stores the paired laps and applies the callback 11 times to the ping arrays |
| Pipeline.XlAudio.TimeBlockCallback | xlaudio.c:671-679 | after the length check, the ping arrays' lower halves are cleared, the callback runs 11 times, and the result is the median callback lap minus the median overhead lap |
| Pipeline.XlAudio.MeasurePerfBuffer | xlaudio.c:656-680 | fatal when no buffer length is configured; otherwise the result is the median difference of the laps, the first 64 samples of the ping arrays are cleared and the callback has run 11 times |

## Left out

- GPIO, LED, push-button, amplifier, microphone power and clock-system setup (`xlaudio_init`, `initClock`, `initClockXTAL`, the LED and pin functions): pure driver calls with no effect on the modelled globals.
- Register programming of ADC14, Timer_A and Timer32: driver calls. Their effects that matter are parameters: the conversion result and the counter readings. Of the uDMA controller only the ping-pong transfer of channel 7 is modelled (`DmaTransfer`); arbitration, burst mode and the control table layout are not.
- The busy-wait of the polling loop and the low-power wait of the interrupt-mode loop: they carry no state.
- `xlaudio_delay`: a busy-wait on a hardware timer with no effect on the globals.
- The `recursive` flag of `ADC14_IRQHandler`. Each method is one atomic handler run, so the flag is always clear on entry; its only effect is to turn on an LED.
- `DMA_ERR_IRQHandler`: it only clears a hardware status register.
- The blinking inside `blockingerror`: only the fact that the processor never leaves it is modelled.
- Preemption inside a callback or a handler: each event is atomic. Interleavings are modelled only at event boundaries.
- `glbSampleCallback` and `glbBufferCallback` are passed to each event instead of being stored.
- `glbDACPPRead` is written by `initADC` and never read; the model keeps it but nothing depends on it.
- `Sorting.SortInPlace`: models `qsort` as an insertion sort with the same comparator. On pairwise-close trials any correct sort gives the same ascending array. On trials 2^31 or more apart, the real `qsort` may order them differently.
- The timing that couples the DAC drain to DMA completions is an assumption, not a consequence of the model: `Handshake.PhasedRun` fixes the in-phase schedule (tick first, then the completion in the same sample period), and the class methods remain independent events. Other orders within one period, and interrupt latency, are not modelled; `Handshake.UncoupledDrainClash` shows what goes wrong without the coupling. End-to-end statements about how many DAC samples match ADC samples after a given number of completions are out of reach.
- `Pipeline.XlAudio.ConsumerPass`: the block callback may only change the DAC array it is given. A C callback could write anywhere.
- `Pipeline.XlAudio.MeasurePerfBuffer`: the callback may only change `glbPingDAC`, as in `ConsumerPass`.
- `Profiler.Profiler.MeasurePerfSample`: the callback's output and the uninitialised input sample are left out; only the counter readings around the call matter.

=== FILE: config.dfy ===
/** The two configuration tables of the library: the ping-pong buffer length
    selected by `configureBuffer` and the Timer_A period selected by
    `configureSampleclock`. Neither C function range-checks its index, so the
    valid range is a precondition here. */
module Config {

  /** Capacity of each of the four ping-pong sample arrays. */
  const MAXPPLEN: nat := 128

  /** The buffer-length table, indexed by the buffer-length enumerator. */
  const BufferLengths: seq<nat> := [8, 16, 32, 64, 128]

  /** The Timer_A periods (in SMCLK cycles), indexed by the sample-rate enumerator. */
  const TimerPeriods: seq<nat> := [6000, 5000, 4354, 3000, 2177, 2000, 1500, 1088, 1000]

  /** `glbBUFLEN` as set by `configureBuffer(pplen)`. */
  function BufferLength(pplen: nat): (n: nat)
    requires pplen < |BufferLengths|
    ensures 8 <= n <= MAXPPLEN
    ensures MAXPPLEN % n == 0
  {
    BufferLengths[pplen]
  }

  /** Each buffer-length index doubles the length of the previous one. */
  lemma BufferLengthDoubles(pplen: nat)
    requires pplen + 1 < |BufferLengths|
    ensures BufferLength(pplen + 1) == 2 * BufferLength(pplen)
  {
  }

  /** `timerPeriod` of the PWM configuration set by `configureSampleclock(fs)`. */
  function TimerPeriod(fs: nat): (p: nat)
    requires fs < |TimerPeriods|
    ensures 1000 <= p <= 6000
  {
    TimerPeriods[fs]
  }

  /** `dutyCycle` of the PWM configuration: half the period, rounded down. */
  function DutyCycle(fs: nat): (d: nat)
    requires fs < |TimerPeriods|
    ensures 0 < d && 2 * d <= TimerPeriod(fs) < 2 * d + 2
  {
    TimerPeriod(fs) / 2
  }

  /** The period table is strictly decreasing: a higher index gives a shorter
      period, hence a higher sample rate. */
  lemma TimerPeriodDecreasing(i: nat, j: nat)
    requires i < j < |TimerPeriods|
    ensures TimerPeriod(i) > TimerPeriod(j)
  {
  }
}

=== FILE: handshake.dfy ===
/** The block-mode (DMA) ping-pong handshake as a state machine over values.

    `Roles` holds the shared globals that the two interrupt handlers and the
    consumer loop read and write: `glbADCPPWrite`, `glbADCPPRead`,
    `glbDACPPWrite`, the buffer `glbActiveDACBuf` points to, `glbDACBufIndex`
    and `glbBUFLEN`. Each event is one function from the state before to the
    state after; the class in module Pipeline is proved against them.

    `System` adds the one piece of hardware state the handshake depends on:
    the alternate-select attribute of the uDMA channel, which the controller
    toggles each time it finishes a buffer in ping-pong mode. */
module Handshake {
  import opened Words

  /** The two buffer labels (`enum {PING, PONG}`). */
  datatype PP = Ping | Pong

  function Other(p: PP): (q: PP)
    ensures q != p
  {
    if p == Ping then Pong else Ping
  }

  datatype Roles = Roles(
    adcWrite: PP,   // glbADCPPWrite: label recorded by the DMA completion handler
    adcRead: PP,    // glbADCPPRead: label the consumer processed last
    dacWrite: PP,   // glbDACPPWrite: DAC buffer the consumer filled last
    active: PP,     // which DAC array glbActiveDACBuf points to
    index: nat,     // glbDACBufIndex
    bufLen: nat)    // glbBUFLEN

  /** The drain index stays inside the configured buffer. */
  ghost predicate DrainValid(r: Roles)
  {
    1 <= r.bufLen <= 128 && r.index < r.bufLen
  }

  /** The consumer's two flags agree (both name the pair it processed last). */
  ghost predicate RoleInvariant(r: Roles)
  {
    r.dacWrite == r.adcRead
  }

  /** State after `initADC` in DMA mode followed by `glbADCPPRead = PING` at
      the start of `xlaudio_run`. */
  function RunStart(bufLen: nat): (r: Roles)
    ensures RoleInvariant(r)
    ensures 1 <= bufLen <= 128 ==> DrainValid(r)
  {
    Roles(Ping, Ping, Ping, Pong, 0, bufLen)
  }

  /** `DMA_INT1_IRQHandler`: with the alternate descriptor active the primary
      (ping) descriptor is re-armed and PING is recorded, otherwise PONG. */
  function OnDmaComplete(r: Roles, altSelect: bool): (t: Roles)
    ensures t.adcWrite == (if altSelect then Ping else Pong)
    ensures t.(adcWrite := r.adcWrite) == r
  {
    r.(adcWrite := if altSelect then Ping else Pong)
  }

  /** `TA0_N_IRQHandler`, DMA branch: emit the current sample of the active DAC
      buffer, advance the index, and at the end of the buffer restart at 0 on
      the buffer named by `glbDACPPWrite`. */
  function OnTick(r: Roles): (t: Roles)
    ensures DrainValid(r) ==> DrainValid(t)
    ensures t.adcWrite == r.adcWrite && t.adcRead == r.adcRead && t.dacWrite == r.dacWrite
    ensures t.bufLen == r.bufLen
    ensures t.active != r.active ==> t.index == 0 && t.active == r.dacWrite
    ensures t.index == 0 ==> t.active == r.dacWrite
    ensures t.index == 0 <==> r.index + 1 == r.bufLen
  {
    if r.index + 1 == r.bufLen then r.(index := 0, active := r.dacWrite)
    else r.(index := r.index + 1)
  }

  /** The label whose ADC/DAC arrays one pass of the consumer loop hands to the
      block callback, or None when the pass does nothing. */
  function ConsumedLabel(r: Roles): (l: Option<PP>)
    ensures l == (if r.adcWrite != r.adcRead then Some(r.adcWrite) else None)
  {
    if r.adcWrite == Ping && r.adcRead == Pong then Some(Ping)
    else if r.adcWrite == Pong && r.adcRead == Ping then Some(Pong)
    else assert r.adcWrite == r.adcRead; None
  }

  /** One pass of the consumer loop of `xlaudio_run` in DMA mode. */
  function OnConsume(r: Roles): (t: Roles)
    ensures r.adcWrite != r.adcRead ==>
      t.adcRead == r.adcWrite && t.dacWrite == r.adcWrite &&
      t.(adcRead := r.adcRead, dacWrite := r.dacWrite) == r
    ensures r.adcWrite == r.adcRead ==> t == r
    ensures t.adcRead == t.adcWrite
  {
    match ConsumedLabel(r)
    case Some(l) => r.(adcRead := l, dacWrite := l)
    case None => r
  }

  /** A second consumer pass with no completion in between does nothing. */
  lemma ConsumeIdempotent(r: Roles)
    ensures OnConsume(OnConsume(r)) == OnConsume(r)
    ensures ConsumedLabel(OnConsume(r)) == None
  {
  }

  /** Every event preserves the role invariant and the drain bound. */
  lemma StepsKeepInvariants(r: Roles, altSelect: bool)
    requires RoleInvariant(r) && DrainValid(r)
    ensures RoleInvariant(OnDmaComplete(r, altSelect)) && DrainValid(OnDmaComplete(r, altSelect))
    ensures RoleInvariant(OnTick(r)) && DrainValid(OnTick(r))
    ensures RoleInvariant(OnConsume(r)) && DrainValid(OnConsume(r))
  {
  }

  /** `k` timer ticks in a row. */
  function TickN(r: Roles, k: nat): (t: Roles)
    ensures t.adcWrite == r.adcWrite && t.adcRead == r.adcRead && t.dacWrite == r.dacWrite
    ensures t.bufLen == r.bufLen
    decreases k
  {
    if k == 0 then r else TickN(OnTick(r), k - 1)
  }

  /** From index `i`, `k` ticks that stay inside the buffer only advance the index. */
  lemma {:induction false} TicksWithinBuffer(r: Roles, k: nat)
    requires DrainValid(r) && r.index + k < r.bufLen
    ensures TickN(r, k) == r.(index := r.index + k)
    decreases k
  {
    if k > 0 {
      TicksWithinBuffer(OnTick(r), k - 1);
    }
  }

  /** The drain period: starting at index 0, exactly `bufLen` ticks bring the
      index back to 0 and make the buffer named by `glbDACPPWrite` active. */
  lemma {:induction false} DrainPeriod(r: Roles)
    requires DrainValid(r) && r.index == 0
    ensures TickN(r, r.bufLen) == r.(active := r.dacWrite)
  {
    var n := r.bufLen;
    TicksWithinBuffer(r, n - 1);
    var s := TickN(r, n - 1);
    assert s == r.(index := n - 1);
    TickNSplit(r, n - 1, 1);
    assert TickN(s, 1) == TickN(OnTick(s), 0);
  }

  lemma {:induction false} TickNSplit(r: Roles, a: nat, b: nat)
    ensures TickN(r, a + b) == TickN(TickN(r, a), b)
    decreases a
  {
    if a > 0 {
      TickNSplit(OnTick(r), a - 1, b);
    }
  }

  // ---------------------------------------------------------------------
  // The hardware layer: the uDMA channel's alternate-select attribute.

  /** Handshake state together with the alternate-select attribute. */
  datatype System = System(roles: Roles, alt: bool)

  /** The ADC array the DMA controller is filling. */
  function Filling(alt: bool): PP
  {
    if alt then Pong else Ping
  }

  datatype Event = DmaDone | SampleTick | ConsumerPass

  /** One event. A completion toggles the attribute (the controller switches
      descriptors) before the handler reads it, so the handler records the
      buffer that has just completed: the one no longer being filled. */
  function Step(s: System, e: Event): (t: System)
    ensures e == DmaDone ==> t.alt == !s.alt && t.roles.adcWrite == Other(Filling(t.alt))
    ensures e != DmaDone ==> t.alt == s.alt
  {
    match e
    case DmaDone => System(OnDmaComplete(s.roles, !s.alt), !s.alt)
    case SampleTick => s.(roles := OnTick(s.roles))
    case ConsumerPass => s.(roles := OnConsume(s.roles))
  }

  /** The labels the block callback runs on while the events happen in order. */
  function Processed(s: System, evs: seq<Event>): seq<PP>
    decreases |evs|
  {
    if evs == [] then []
    else
      var here := if evs[0] == ConsumerPass && ConsumedLabel(s.roles).Some?
                  then [ConsumedLabel(s.roles).value] else [];
      here + Processed(Step(s, evs[0]), evs[1..])
  }

  function Run(s: System, evs: seq<Event>): System
    decreases |evs|
  {
    if evs == [] then s else Run(Step(s, evs[0]), evs[1..])
  }

  /** The state at the start of the DMA loop. `initADC` clears the
      alternate-select attribute, so the primary (ping) descriptor fills first;
      the state satisfies both the capture-side and the playback-side invariant. */
  function Start(bufLen: nat): (s: System)
    ensures Filling(s.alt) == Ping
    ensures s.roles.adcWrite == s.roles.adcRead == Ping
    ensures 1 <= bufLen <= 128 ==> Inv(s)
    ensures DacSafe(s)
  {
    System(RunStart(bufLen), false)
  }

  lemma {:induction false} ProcessedAppend(s: System, a: seq<Event>, b: seq<Event>)
    ensures Processed(s, a + b) == Processed(s, a) + Processed(Run(s, a), b)
    ensures Run(s, a + b) == Run(Run(s, a), b)
    decreases |a|
  {
    if a == [] {
      assert a + b == b;
    } else {
      assert (a + b)[0] == a[0];
      assert (a + b)[1..] == a[1..] + b;
      ProcessedAppend(Step(s, a[0]), a[1..], b);
    }
  }

  // ---------------------------------------------------------------------
  // Capture side.

  /** The invariants of the handshake: the drain bound, the role invariant,
      and "a label the consumer would process is never the array being filled". */
  ghost predicate Inv(s: System)
  {
    DrainValid(s.roles) && RoleInvariant(s.roles) &&
    (s.roles.adcWrite != s.roles.adcRead ==> s.roles.adcWrite != Filling(s.alt))
  }

  /** Whenever the consumer runs the callback, it is on the ADC array the DMA
      controller is not writing. */
  lemma ConsumerAvoidsFilling(s: System)
    requires Inv(s) && ConsumedLabel(s.roles).Some?
    ensures ConsumedLabel(s.roles).value != Filling(s.alt)
  {
  }

  /** Every interleaving of completions, ticks and consumer passes keeps `Inv`. */
  lemma {:induction false} RunKeepsInv(s: System, evs: seq<Event>)
    requires Inv(s)
    ensures Inv(Run(s, evs))
    decreases |evs|
  {
    if evs != [] {
      StepsKeepInvariants(s.roles, !s.alt);
      RunKeepsInv(Step(s, evs[0]), evs[1..]);
    }
  }

  /** Consecutive completions record alternating labels, whatever ticks and
      consumer passes fall between them. */
  lemma CompletionsAlternate(s: System, mid: seq<Event>)
    requires Quiet(mid)
    ensures Run(s, [DmaDone] + mid + [DmaDone]).roles.adcWrite
         == Other(Step(s, DmaDone).roles.adcWrite)
  {
    var s1 := Step(s, DmaDone);
    QuietKeepsRecorded(s1, mid);
    assert ([DmaDone] + mid)[0] == DmaDone && ([DmaDone] + mid)[1..] == mid;
    ProcessedAppend(s, [DmaDone] + mid, [DmaDone]);
  }

  /** From run start, the first completion (ping finished, alternate now
      selected) changes nothing the consumer reacts to. */
  lemma FirstCompletionIgnored(bufLen: nat)
    ensures ConsumedLabel(Step(Start(bufLen), DmaDone).roles) == None
    ensures Processed(Start(bufLen), [DmaDone, ConsumerPass]) == []
  {
  }

  /** The second completion (pong finished) is the first one processed. */
  lemma PongProcessedFirst(bufLen: nat)
    ensures Processed(Start(bufLen), [DmaDone, ConsumerPass, DmaDone, ConsumerPass]) == [Pong]
  {
  }

  // ---------------------------------------------------------------------
  // Processing schedules.

  /** Events that are not completions: timer ticks and consumer passes. */
  ghost predicate Quiet(evs: seq<Event>)
  {
    forall i :: 0 <= i < |evs| ==> evs[i] != DmaDone
  }

  lemma QuietTail(evs: seq<Event>)
    requires Quiet(evs) && evs != []
    ensures evs[0] != DmaDone && Quiet(evs[1..])
  {
    forall i | 0 <= i < |evs| - 1
      ensures evs[1..][i] != DmaDone
    {
      assert evs[1..][i] == evs[i + 1];
    }
  }

  /** Ticks and consumer passes leave the attribute and the recorded label alone. */
  lemma {:induction false} QuietKeepsRecorded(s: System, evs: seq<Event>)
    requires Quiet(evs)
    ensures Run(s, evs).alt == s.alt && Run(s, evs).roles.adcWrite == s.roles.adcWrite
    decreases |evs|
  {
    if evs != [] {
      QuietTail(evs);
      QuietKeepsRecorded(Step(s, evs[0]), evs[1..]);
    }
  }

  /** Nothing has completed since the labels were set: all three name the ADC
      array being filled. */
  ghost predicate Idle(s: System)
  {
    s.roles.adcWrite == s.roles.adcRead == s.roles.dacWrite == Filling(s.alt)
  }

  /** Before the first completion, ticks and consumer passes process nothing. */
  lemma {:induction false} QuietWhileIdle(s: System, evs: seq<Event>)
    requires Idle(s) && Quiet(evs)
    ensures Processed(s, evs) == []
    ensures Idle(Run(s, evs)) && Run(s, evs).alt == s.alt
    decreases |evs|
  {
    if evs != [] {
      QuietTail(evs);
      QuietWhileIdle(Step(s, evs[0]), evs[1..]);
    }
  }

  /** The consumer has caught up with the last completion, and that completion
      agrees with the alternate-select attribute. */
  ghost predicate CaughtUp(s: System)
  {
    s.roles.adcWrite == s.roles.adcRead == s.roles.dacWrite &&
    s.roles.adcWrite == Other(Filling(s.alt))
  }

  /** One completion has arrived since the consumer caught up. */
  ghost predicate Pending(s: System)
  {
    s.roles.adcRead == s.roles.dacWrite == Filling(s.alt) &&
    s.roles.adcWrite == Other(Filling(s.alt))
  }

  /** While no completion arrives, a caught-up consumer processes nothing,
      however many ticks and passes happen. */
  lemma {:induction false} QuietWhileCaughtUp(s: System, evs: seq<Event>)
    requires CaughtUp(s) && Quiet(evs)
    ensures Processed(s, evs) == []
    ensures CaughtUp(Run(s, evs)) && Run(s, evs).roles.adcWrite == s.roles.adcWrite
    decreases |evs|
  {
    if evs != [] {
      QuietTail(evs);
      QuietWhileCaughtUp(Step(s, evs[0]), evs[1..]);
    }
  }

  /** With one completion pending, ticks and passes in any order process that
      buffer exactly once, at the first pass. */
  lemma {:induction false} QuietWhilePending(s: System, evs: seq<Event>)
    requires Pending(s) && Quiet(evs) && ConsumerPass in evs
    ensures Processed(s, evs) == [s.roles.adcWrite]
    ensures CaughtUp(Run(s, evs)) && Run(s, evs).roles.adcWrite == s.roles.adcWrite
    decreases |evs|
  {
    QuietTail(evs);
    if evs[0] == ConsumerPass {
      QuietWhileCaughtUp(Step(s, evs[0]), evs[1..]);
    } else {
      var i :| 0 <= i < |evs| && evs[i] == ConsumerPass;
      assert evs[1..][i - 1] == ConsumerPass;
      QuietWhilePending(Step(s, evs[0]), evs[1..]);
    }
  }

  /** One round: a completion, then ticks and at least one consumer pass. */
  lemma RoundFromCaughtUp(s: System, mid: seq<Event>)
    requires CaughtUp(s) && Quiet(mid) && ConsumerPass in mid
    ensures Processed(s, [DmaDone] + mid) == [Other(s.roles.adcWrite)]
    ensures CaughtUp(Run(s, [DmaDone] + mid))
    ensures Run(s, [DmaDone] + mid).roles.adcWrite == Other(s.roles.adcWrite)
  {
    var s1 := Step(s, DmaDone);
    assert Pending(s1);
    QuietWhilePending(s1, mid);
    assert ([DmaDone] + mid)[0] == DmaDone && ([DmaDone] + mid)[1..] == mid;
  }

  /** Rounds of one completion each, the `i`-th followed by the ticks and
      consumer passes of `mids[i]`. */
  function Schedule(mids: seq<seq<Event>>): seq<Event>
    decreases |mids|
  {
    if mids == [] then [] else [DmaDone] + mids[0] + Schedule(mids[1..])
  }

  /** The consumer loop runs at least once between every two completions. */
  ghost predicate KeepsUp(mids: seq<seq<Event>>)
  {
    forall i :: 0 <= i < |mids| ==> Quiet(mids[i]) && ConsumerPass in mids[i]
  }

  lemma KeepsUpTail(mids: seq<seq<Event>>)
    requires KeepsUp(mids) && mids != []
    ensures KeepsUp(mids[1..])
  {
    forall i | 0 <= i < |mids| - 1
      ensures Quiet(mids[1..][i]) && ConsumerPass in mids[1..][i]
    {
      assert mids[1..][i] == mids[i + 1];
    }
  }

  /** `k` labels alternating from `p`. */
  function Alternating(p: PP, k: nat): (ls: seq<PP>)
    ensures |ls| == k
  {
    seq(k, j => if j % 2 == 0 then p else Other(p))
  }

  lemma AlternatingCons(p: PP, k: nat)
    requires k > 0
    ensures [p] + Alternating(Other(p), k - 1) == Alternating(p, k)
  {
    assert Other(Other(p)) == p;
  }

  /** When the consumer runs at least once between every two completions,
      whatever the ticks, the callback runs exactly once per completed buffer,
      on alternating labels. */
  lemma {:induction false} LockstepFromCaughtUp(s: System, mids: seq<seq<Event>>)
    requires CaughtUp(s) && KeepsUp(mids)
    ensures Processed(s, Schedule(mids)) == Alternating(Other(s.roles.adcWrite), |mids|)
    decreases |mids|
  {
    if mids != [] {
      var round := [DmaDone] + mids[0];
      RoundFromCaughtUp(s, mids[0]);
      KeepsUpTail(mids);
      LockstepFromCaughtUp(Run(s, round), mids[1..]);
      ProcessedAppend(s, round, Schedule(mids[1..]));
      AlternatingCons(Other(s.roles.adcWrite), |mids|);
    }
  }

  /** From run start, whatever ticks and consumer passes precede the first
      completion, and with the consumer running at least once between
      completions, `k` completions lead to exactly `k - 1` callback runs:
      Pong, Ping, Pong, ... The first buffer filled (ping) is never processed. */
  lemma {:induction false} LockstepFromRunStart(bufLen: nat, pre: seq<Event>, mids: seq<seq<Event>>)
    requires Quiet(pre) && KeepsUp(mids) && |mids| >= 1
    ensures Processed(Start(bufLen), pre + Schedule(mids)) == Alternating(Pong, |mids| - 1)
  {
    var s := Run(Start(bufLen), pre);
    QuietWhileIdle(Start(bufLen), pre);
    ProcessedAppend(Start(bufLen), pre, Schedule(mids));
    var s1 := Step(s, DmaDone);
    var round := [DmaDone] + mids[0];
    assert CaughtUp(s1) && s1.roles.adcWrite == Ping;
    QuietWhileCaughtUp(s1, mids[0]);
    assert round[0] == DmaDone && round[1..] == mids[0];
    KeepsUpTail(mids);
    LockstepFromCaughtUp(Run(s, round), mids[1..]);
    ProcessedAppend(s, round, Schedule(mids[1..]));
  }

  /** Timer ticks only. */
  ghost predicate TicksOnly(evs: seq<Event>)
  {
    forall i :: 0 <= i < |evs| ==> evs[i] == SampleTick
  }

  /** Ticks leave the attribute and the three labels alone and process nothing. */
  lemma {:induction false} TicksKeepLabels(s: System, evs: seq<Event>)
    requires TicksOnly(evs)
    ensures Processed(s, evs) == []
    ensures Run(s, evs).alt == s.alt
    ensures Run(s, evs).roles.adcWrite == s.roles.adcWrite
    ensures Run(s, evs).roles.adcRead == s.roles.adcRead
    ensures Run(s, evs).roles.dacWrite == s.roles.dacWrite
    decreases |evs|
  {
    if evs != [] {
      assert evs[0] == SampleTick;
      assert TicksOnly(evs[1..]) by {
        forall i | 0 <= i < |evs| - 1
          ensures evs[1..][i] == SampleTick
        {
          assert evs[1..][i] == evs[i + 1];
        }
      }
      TicksKeepLabels(Step(s, evs[0]), evs[1..]);
    }
  }

  /** Completions separated by ticks only, with no consumer pass. */
  ghost predicate NoPasses(mids: seq<seq<Event>>)
  {
    forall i :: 0 <= i < |mids| ==> TicksOnly(mids[i])
  }

  /** Completions separated by ticks only toggle the attribute and the
      recorded label once per completion, leave the read labels alone and
      process nothing. */
  lemma {:induction false} ScheduleToggle(s: System, mids: seq<seq<Event>>)
    requires s.roles.adcWrite == Other(Filling(s.alt)) && NoPasses(mids)
    ensures Processed(s, Schedule(mids)) == []
    ensures Run(s, Schedule(mids)).alt == if |mids| % 2 == 0 then s.alt else !s.alt
    ensures Run(s, Schedule(mids)).roles.adcWrite
         == if |mids| % 2 == 0 then s.roles.adcWrite else Other(s.roles.adcWrite)
    ensures Run(s, Schedule(mids)).roles.adcRead == s.roles.adcRead
    ensures Run(s, Schedule(mids)).roles.dacWrite == s.roles.dacWrite
    decreases |mids|
  {
    if mids != [] {
      var round := [DmaDone] + mids[0];
      assert round[0] == DmaDone && round[1..] == mids[0];
      TicksKeepLabels(Step(s, DmaDone), mids[0]);
      assert NoPasses(mids[1..]) by {
        forall i | 0 <= i < |mids| - 1
          ensures TicksOnly(mids[1..][i])
        {
          assert mids[1..][i] == mids[i + 1];
        }
      }
      ScheduleToggle(Run(s, round), mids[1..]);
      ProcessedAppend(s, round, Schedule(mids[1..]));
    }
  }

  /** Backlog: `k` completions, each after its buffer's ticks, between two
      consumer passes. The consumer compares one-bit labels, so it processes
      nothing when `k` is even and only the most recently completed buffer
      when `k` is odd. */
  lemma Backlog(s: System, mids: seq<seq<Event>>)
    requires CaughtUp(s) && NoPasses(mids)
    ensures Processed(s, Schedule(mids) + [ConsumerPass])
         == if |mids| % 2 == 0 then [] else [Run(s, Schedule(mids)).roles.adcWrite]
  {
    ScheduleToggle(s, mids);
    ProcessedAppend(s, Schedule(mids), [ConsumerPass]);
  }

  // ---------------------------------------------------------------------
  // Playback side.

  /** A label the consumer would process is never the DAC array being drained. */
  ghost predicate DacSafe(s: System)
  {
    RoleInvariant(s.roles) &&
    (s.roles.adcWrite != s.roles.adcRead ==> s.roles.adcWrite != s.roles.active)
  }

  /** Under `DacSafe`, the consumer never rewrites the DAC array being drained. */
  lemma ConsumerAvoidsDraining(s: System)
    requires DacSafe(s) && ConsumedLabel(s.roles).Some?
    ensures ConsumedLabel(s.roles).value != s.roles.active
  {
  }

  /** Without the coupling of drain and capture, the consumer can be handed the
      DAC array being drained: two completions with no tick in between. */
  lemma UncoupledDrainClash(bufLen: nat)
    requires 1 <= bufLen <= 128
    ensures Inv(Run(Start(bufLen), [DmaDone, DmaDone]))
    ensures ConsumedLabel(Run(Start(bufLen), [DmaDone, DmaDone]).roles) == Some(Pong)
    ensures Run(Start(bufLen), [DmaDone, DmaDone]).roles.active == Pong
  {
  }

  /** One sample period with drain and capture in phase: a timer tick and,
      when that tick wraps the drain index, the completion of the capture
      buffer whose last sample the tick's conversion delivered. */
  function Period(s: System): (t: System)
    ensures t.roles.index == OnTick(s.roles).index
    ensures t.roles.index == 0 ==>
      t.alt == !s.alt && t.roles.active == s.roles.dacWrite && t.roles.adcWrite == Other(Filling(t.alt))
    ensures t.roles.index != 0 ==> t.alt == s.alt && t.roles == OnTick(s.roles)
  {
    var t := Step(s, SampleTick);
    if t.roles.index == 0 then Step(t, DmaDone) else t
  }

  datatype PhasedEvent = SamplePeriod | Pass

  /** A run with drain and capture in phase. */
  function PhasedRun(s: System, evs: seq<PhasedEvent>): System
    decreases |evs|
  {
    if evs == [] then s
    else PhasedRun(if evs[0] == SamplePeriod then Period(s) else Step(s, ConsumerPass), evs[1..])
  }

  /** With drain and capture in phase, every interleaving of sample periods and
      consumer passes keeps `DacSafe`: the drain switches to the buffer named
      by `glbDACPPWrite` exactly when a capture buffer completes. */
  lemma {:induction false} PhasedRunKeepsDacSafe(s: System, evs: seq<PhasedEvent>)
    requires DacSafe(s)
    ensures DacSafe(PhasedRun(s, evs))
    decreases |evs|
  {
    if evs != [] {
      var t := Step(s, SampleTick);
      assert DacSafe(t) && (t.roles.index == 0 ==> t.roles.active == t.roles.adcRead);
      PhasedRunKeepsDacSafe(if evs[0] == SamplePeriod then Period(s) else Step(s, ConsumerPass), evs[1..]);
    }
  }
}

=== FILE: pipeline.dfy ===
/** The library's global state and the code that changes it: configuration
    (`configureBuffer`, `configureSampleclock`, `initMic`/`initADC` and the
    `xlaudio_init_*` assignments), the run dispatch and the loop bodies of
    `xlaudio_run`, the two interrupt handlers of block mode, the sample path of
    the other two modes, and `xlaudio_measurePerfBuffer`.

    The events are the methods `InitPoll`, `InitIntr`, `InitDma`, `BootDma`,
    `StartRun`, `ConsumerPass`, `PollPass`, `AdcInterrupt`, `TimerTick`,
    `DmaComplete`, `DmaTransfer` and `MeasurePerfBuffer`. Each is atomic, and
    any sequence of their calls stands for an interleaving of the interrupt
    handlers with the foreground code. A `blockingerror` call sets `faulted`,
    after which every event leaves the state as it is: the processor is
    spinning in the error loop. The other methods (`ConfigureBuffer`,
    `ConfigureSampleclock`, `InitMic`, `InitAdc`, `ResetDma`, `ResetRoles`,
    `ApplyBlock`, `ProcessSample`, `ClearBytes`, `TimedTrials`,
    `TimeBlockCallback`) are steps inside those events, not called on their
    own; they do not test `faulted`. */
module Pipeline {
  import opened Words
  import opened Config
  import opened Handshake
  import opened Sorting
  import Profiler

  /** `glbIO`. `IoUnknown` stands for any value of the enumeration variable
      other than the three enumerators. */
  datatype IoMode = IoPoll | IoIntr | IoDma | IoUnknown

  /** The input-source argument: the microphone, pin J1.2, or any other value. */
  datatype InputSource = MicIn | J1_2In | UnknownIn

  /** What the user's block callback sees of one ping-pong array. */
  type Block = s: seq<U16> | |s| == MAXPPLEN witness seq(MAXPPLEN, _ => 0)

  /** The block callback, given the ADC array and the DAC array; the result is
      the new content of the DAC array, the only array it may change. */
  type BlockCallback = (Block, Block) -> Block

  /** The per-sample callback of polling and interrupt mode. */
  type SampleCallback = U16 -> U16

  /** The scalar globals, as one value. */
  datatype Globals = Globals(
    io: IoMode,
    roles: Roles,
    dacRead: PP,         // glbDACPPRead: written, never read
    alt: bool,           // the alternate-select attribute of DMA channel 7
    fill: nat,           // transfers done by the current DMA descriptor
    timerPeriod: nat,    // glbPWMConfig.timerPeriod
    dutyCycle: nat,      // glbPWMConfig.dutyCycle
    faulted: bool,       // inside blockingerror
    dacOut: seq<U16>)    // every value passed to DAC8311_updateDacOut, in order

  /** `callback` applied `n` times to the same ADC block, starting from `dac`. */
  function Repeat(cb: BlockCallback, adc: Block, dac: Block, n: nat): Block
  {
    if n == 0 then dac else cb(adc, Repeat(cb, adc, dac, n - 1))
  }

  /** `memset(buf, 0, nbytes)` on an array of `uint16_t`: the first
      `nbytes / 2` samples become zero. */
  function Memset16(s: seq<U16>, nbytes: nat): (r: seq<U16>)
    ensures |r| == |s|
  {
    seq(|s|, i requires 0 <= i < |s| => if i < nbytes / 2 then 0 else s[i])
  }

  /** With the byte count `MAXPPLEN`, only the lower half of a sample array
      is cleared; the upper half keeps its samples. */
  lemma MemsetClearsLowerHalf(s: seq<U16>)
    requires |s| == MAXPPLEN
    ensures Memset16(s, MAXPPLEN)[..MAXPPLEN / 2] == seq(MAXPPLEN / 2, _ => 0)
    ensures Memset16(s, MAXPPLEN)[MAXPPLEN / 2..] == s[MAXPPLEN / 2..]
  {
  }

  class XlAudio {
    var io: IoMode                 // glbIO
    var bufLen: U16                // glbBUFLEN
    const pingADC: array<U16>      // glbPingADC
    const pongADC: array<U16>      // glbPongADC
    const pingDAC: array<U16>      // glbPingDAC
    const pongDAC: array<U16>      // glbPongDAC
    var adcWrite: PP               // glbADCPPWrite
    var adcRead: PP                // glbADCPPRead
    var dacWrite: PP               // glbDACPPWrite
    var dacRead: PP                // glbDACPPRead
    var active: PP                 // glbActiveDACBuf points to pingDAC or pongDAC
    var dacIndex: U16              // glbDACBufIndex
    var dmaAlt: bool               // UDMA_ATTR_ALTSELECT of channel 7
    var fillIndex: U16             // transfers done by the current descriptor
    var timerPeriod: nat
    var dutyCycle: nat
    var faulted: bool
    var dacOut: seq<U16>

    /** The four arrays are distinct and hold `MAXPPLEN` samples each. */
    ghost predicate ArraysOk()
    {
      pingADC.Length == pongADC.Length == pingDAC.Length == pongDAC.Length == MAXPPLEN &&
      pingADC != pongADC && pingADC != pingDAC && pingADC != pongDAC &&
      pongADC != pingDAC && pongADC != pongDAC && pingDAC != pongDAC
    }

    /** In block mode, outside the error loop, the drain index and the fill
        position are inside the buffer. */
    ghost predicate Valid()
      reads this
    {
      ArraysOk() && bufLen <= MAXPPLEN &&
      (io == IoDma && !faulted ==> 1 <= bufLen && dacIndex < bufLen && fillIndex < bufLen)
    }

    /** The globals shared by the handshake. */
    ghost function SharedRoles(): Roles
      reads this
    {
      Roles(adcWrite, adcRead, dacWrite, active, dacIndex, bufLen)
    }

    /** The handshake state together with the DMA channel's attribute. */
    ghost function Sys(): System
      reads this
    {
      System(SharedRoles(), dmaAlt)
    }

    ghost function State(): Globals
      reads this
    {
      Globals(io, SharedRoles(), dacRead, dmaAlt, fillIndex, timerPeriod, dutyCycle, faulted, dacOut)
    }

    function DacBuf(p: PP): array<U16>
    {
      if p == Ping then pingDAC else pongDAC
    }

    function AdcBuf(p: PP): array<U16>
    {
      if p == Ping then pingADC else pongADC
    }

    /** The power-on values of the globals: zero-initialised storage, and the
        initialisers of the role flags and of `glbActiveDACBuf`. */
    constructor ()
      ensures Valid()
      ensures State() == Globals(IoPoll, Roles(Ping, Ping, Ping, Pong, 0, 0), Ping, false, 0, 0, 0, false, [])
      ensures fresh(pingADC) && fresh(pongADC) && fresh(pingDAC) && fresh(pongDAC)
      ensures forall i :: 0 <= i < MAXPPLEN ==>
        pingADC[i] == 0 && pongADC[i] == 0 && pingDAC[i] == 0 && pongDAC[i] == 0
    {
      io, bufLen := IoPoll, 0;
      pingADC := new U16[MAXPPLEN](_ => 0);
      pongADC := new U16[MAXPPLEN](_ => 0);
      pingDAC := new U16[MAXPPLEN](_ => 0);
      pongDAC := new U16[MAXPPLEN](_ => 0);
      adcWrite, adcRead, dacWrite, dacRead := Ping, Ping, Ping, Ping;
      active, dacIndex := Pong, 0;
      dmaAlt, fillIndex := false, 0;
      timerPeriod, dutyCycle := 0, 0;
      faulted, dacOut := false, [];
    }

    // -------------------------------------------------------------------
    // Configuration

    /** `configureBuffer`: set `glbBUFLEN` from the table and zero the first
        `glbBUFLEN` samples of all four arrays. */
    method ConfigureBuffer(pplen: nat)
      requires ArraysOk() && pplen < |BufferLengths|
      modifies this, pingADC, pongADC, pingDAC, pongDAC
      ensures State() == old(State()).(roles := old(SharedRoles()).(bufLen := BufferLength(pplen)))
      ensures forall i :: 0 <= i < bufLen ==>
        pingADC[i] == 0 && pongADC[i] == 0 && pingDAC[i] == 0 && pongDAC[i] == 0
      ensures forall i :: bufLen <= i < MAXPPLEN ==>
        pingADC[i] == old(pingADC[i]) && pongADC[i] == old(pongADC[i]) &&
        pingDAC[i] == old(pingDAC[i]) && pongDAC[i] == old(pongDAC[i])
    {
      bufLen := BufferLengths[pplen];
      for k := 0 to bufLen
        invariant bufLen == BufferLength(pplen)
        invariant State() == old(State()).(roles := old(SharedRoles()).(bufLen := BufferLength(pplen)))
        invariant forall i :: 0 <= i < k ==>
          pingADC[i] == 0 && pongADC[i] == 0 && pingDAC[i] == 0 && pongDAC[i] == 0
        invariant forall i :: k <= i < MAXPPLEN ==>
          pingADC[i] == old(pingADC[i]) && pongADC[i] == old(pongADC[i]) &&
          pingDAC[i] == old(pingDAC[i]) && pongDAC[i] == old(pongDAC[i])
      {
        pingDAC[k] := 0;
        pongDAC[k] := 0;
        pingADC[k] := 0;
        pongADC[k] := 0;
      }
    }

    /** `configureSampleclock`: the PWM period from the table, duty cycle half of it. */
    method ConfigureSampleclock(fs: nat)
      requires fs < |TimerPeriods|
      modifies this
      ensures State() == old(State()).(timerPeriod := TimerPeriod(fs), dutyCycle := DutyCycle(fs))
      ensures unchanged(this`bufLen)
    {
      timerPeriod := TimerPeriods[fs];
      dutyCycle := TimerPeriods[fs] / 2;
    }

    /** `initMic`: only the microphone and pin J1.2 are accepted inputs. */
    method InitMic(input: InputSource)
      modifies this
      ensures State() == old(State()).(faulted := old(faulted) || input == UnknownIn)
      ensures unchanged(this`bufLen)
    {
      if input == MicIn {
      } else if input == J1_2In {
      } else {
        faulted := true;
      }
    }

    /** `initADC`: reject an unknown input; in block mode clear the
        alternate-select attribute, arm both descriptors for a full buffer,
        and reset the roles (write PING, read PONG) and the drain to the start
        of the pong DAC array. */
    method InitAdc(input: InputSource)
      modifies this
      ensures input == UnknownIn ==> State() == old(State()).(faulted := true)
      ensures input != UnknownIn && old(io) == IoDma ==>
        State() == old(State()).(roles := old(SharedRoles()).(adcWrite := Ping, adcRead := Pong,
          dacWrite := Ping, active := Pong, index := 0), dacRead := Pong, alt := false, fill := 0)
      ensures input != UnknownIn && old(io) != IoDma ==> State() == old(State())
      ensures unchanged(this`bufLen)
    {
      if input == MicIn {
      } else if input == J1_2In {
      } else {
        faulted := true;
        return;
      }
      if io == IoDma {
        ResetDma();
      }
    }

    /** The block-mode part of `initADC`: the attribute cleared, both
        descriptors armed from the start, and the roles reset. */
    method ResetDma()
      modifies this
      ensures State() == old(State()).(roles := Roles(Ping, Pong, Ping, Pong, 0, old(bufLen)),
        dacRead := Pong, alt := false, fill := 0)
    {
      dmaAlt, fillIndex := false, 0;
      ResetRoles();
    }

    /** The role assignments of `initADC`. */
    method ResetRoles()
      modifies this
      ensures State() == old(State()).(roles := Roles(Ping, Pong, Ping, Pong, 0, old(bufLen)), dacRead := Pong)
    {
      adcWrite, adcRead, dacWrite, dacRead := Ping, Pong, Ping, Pong;
      active, dacIndex := Pong, 0;
    }

    /** `xlaudio_init_poll`: polling mode with single-sample buffers. */
    method InitPoll(input: InputSource)
      requires Valid()
      modifies this
      ensures Valid()
      ensures old(faulted) ==> unchanged(this)
      ensures !old(faulted) ==> State() == old(State()).(io := IoPoll,
        roles := old(SharedRoles()).(bufLen := 1), faulted := input == UnknownIn)
    {
      if faulted { return; }
      io := IoPoll;
      bufLen := 1;
      InitMic(input);
      if faulted { return; }
      InitAdc(input);
    }

    /** `xlaudio_init_intr`: interrupt mode with single-sample buffers. */
    method InitIntr(fs: nat, input: InputSource)
      requires Valid() && fs < |TimerPeriods|
      modifies this
      ensures Valid()
      ensures old(faulted) ==> unchanged(this)
      ensures !old(faulted) && input == UnknownIn ==> State() == old(State()).(io := IoIntr,
        roles := old(SharedRoles()).(bufLen := 1), faulted := true)
      ensures !old(faulted) && input != UnknownIn ==> State() == old(State()).(io := IoIntr,
        roles := old(SharedRoles()).(bufLen := 1), timerPeriod := TimerPeriod(fs), dutyCycle := DutyCycle(fs))
    {
      if faulted { return; }
      io := IoIntr;
      bufLen := 1;
      InitMic(input);
      if faulted { return; }
      ConfigureSampleclock(fs);
      InitAdc(input);
    }

    /** `xlaudio_init_dma`: block mode; configures the buffers, then the sample
        clock, then resets the handshake roles. */
    method InitDma(fs: nat, input: InputSource, pplen: nat)
      requires Valid() && fs < |TimerPeriods| && pplen < |BufferLengths|
      modifies this, pingADC, pongADC, pingDAC, pongDAC
      ensures Valid()
      ensures old(faulted) ==> unchanged(this) && unchanged(pingADC, pongADC, pingDAC, pongDAC)
      ensures !old(faulted) ==> io == IoDma && bufLen == BufferLength(pplen)
      ensures !old(faulted) ==> forall i :: 0 <= i < bufLen ==>
        pingADC[i] == 0 && pongADC[i] == 0 && pingDAC[i] == 0 && pongDAC[i] == 0
      ensures !old(faulted) ==> forall i :: bufLen <= i < MAXPPLEN ==>
        pingADC[i] == old(pingADC[i]) && pongADC[i] == old(pongADC[i]) &&
        pingDAC[i] == old(pingDAC[i]) && pongDAC[i] == old(pongDAC[i])
      ensures !old(faulted) && input == UnknownIn ==> State() == old(State()).(io := IoDma,
        roles := old(SharedRoles()).(bufLen := BufferLength(pplen)), faulted := true)
      ensures !old(faulted) && input != UnknownIn ==> State() == old(State()).(io := IoDma,
        roles := Roles(Ping, Pong, Ping, Pong, 0, BufferLength(pplen)), dacRead := Pong, alt := false, fill := 0,
        timerPeriod := TimerPeriod(fs), dutyCycle := DutyCycle(fs))
    {
      if faulted { return; }
      io := IoDma;
      ConfigureBuffer(pplen);
      InitMic(input);
      if faulted { return; }
      ConfigureSampleclock(fs);
      InitAdc(input);
    }

    // -------------------------------------------------------------------
    // xlaudio_run

    /** The dispatch of `xlaudio_run`: block mode enters its loop with
        `glbADCPPRead = PING`; an unknown mode ends in `blockingerror`;
        polling and interrupt mode enter loops that change no global here. */
    method StartRun()
      requires Valid()
      modifies this
      ensures Valid()
      ensures old(faulted) ==> unchanged(this)
      ensures !old(faulted) && old(io) == IoDma ==>
        State() == old(State()).(roles := old(SharedRoles()).(adcRead := Ping))
      ensures !old(faulted) && old(io) == IoUnknown ==> State() == old(State()).(faulted := true)
      ensures !old(faulted) && (old(io) == IoPoll || old(io) == IoIntr) ==> unchanged(this)
    {
      if faulted { return; }
      if io == IoPoll {
      } else if io == IoIntr {
      } else if io == IoDma {
        adcRead := Ping;
      } else {
        faulted := true;
      }
    }

    /** Block-mode boot: `xlaudio_init_dma` followed by the dispatch of
        `xlaudio_run`. With an accepted input the handshake is in
        `Handshake.Start`, so the trace lemmas of `Handshake` apply to every
        later sequence of handler and loop events. */
    method BootDma(fs: nat, input: InputSource, pplen: nat)
      requires Valid() && fs < |TimerPeriods| && pplen < |BufferLengths|
      modifies this, pingADC, pongADC, pingDAC, pongDAC
      ensures Valid()
      ensures old(faulted) ==> unchanged(this) && unchanged(pingADC, pongADC, pingDAC, pongDAC)
      ensures !old(faulted) && input == UnknownIn ==> faulted
      ensures !old(faulted) && input != UnknownIn ==>
        !faulted && io == IoDma && Sys() == Start(BufferLength(pplen)) && Inv(Sys()) && DacSafe(Sys())
    {
      InitDma(fs, input, pplen);
      StartRun();
    }

    /** Hand one ADC array and one DAC array to the block callback. */
    method ApplyBlock(cb: BlockCallback, adc: array<U16>, dac: array<U16>)
      requires adc.Length == dac.Length == MAXPPLEN && adc != dac
      modifies dac
      ensures dac[..] == cb(adc[..], old(dac[..]))
    {
      var out := cb(adc[..], dac[..]);
      forall i | 0 <= i < MAXPPLEN {
        dac[i] := out[i];
      }
      assert dac[..] == out;
      assert adc[..] == old(adc[..]);
    }

    /** One pass of the block-mode loop of `xlaudio_run`: when the completion
        handler recorded a label other than the one read last, run the callback
        once on that label's ADC and DAC arrays and record the label as both
        read (ADC) and written (DAC). */
    method ConsumerPass(cb: BlockCallback)
      requires Valid() && io == IoDma
      modifies this, pingDAC, pongDAC
      ensures Valid()
      ensures old(faulted) ==> unchanged(this) && unchanged(pingDAC, pongDAC)
      ensures !old(faulted) ==> State() == old(State()).(roles := OnConsume(old(SharedRoles())))
      ensures !old(faulted) ==> Sys() == Step(old(Sys()), Event.ConsumerPass)
      ensures !old(faulted) && ConsumedLabel(old(SharedRoles())) == Some(Ping) ==>
        pingDAC[..] == cb(pingADC[..], old(pingDAC[..])) && unchanged(pongDAC)
      ensures !old(faulted) && ConsumedLabel(old(SharedRoles())) == Some(Pong) ==>
        pongDAC[..] == cb(pongADC[..], old(pongDAC[..])) && unchanged(pingDAC)
      ensures ConsumedLabel(old(SharedRoles())) == None ==> unchanged(pingDAC, pongDAC)
    {
      if faulted { return; }
      if adcWrite == Ping && adcRead == Pong {
        ApplyBlock(cb, pingADC, pingDAC);
        adcRead := Ping;
        dacWrite := Ping;
      } else if adcWrite == Pong && adcRead == Ping {
        ApplyBlock(cb, pongADC, pongDAC);
        adcRead := Pong;
        dacWrite := Pong;
      }
    }

    /** The shared sample path: store the conversion result, run the sample
        callback on it, and send its result to the DAC. */
    method ProcessSample(sample: U16, cb: SampleCallback)
      requires ArraysOk()
      modifies this, pingADC, pingDAC
      ensures State() == old(State()).(dacOut := old(dacOut) + [cb(sample)])
      ensures pingADC[..] == old(pingADC[..])[0 := sample]
      ensures pingDAC[..] == old(pingDAC[..])[0 := cb(sample)]
    {
      pingADC[0] := sample;
      pingDAC[0] := cb(pingADC[0]);
      dacOut := dacOut + [pingDAC[0]];
    }

    /** One pass of the polling loop of `xlaudio_run`, given the conversion
        result the busy-wait produced. */
    method PollPass(sample: U16, cb: SampleCallback)
      requires Valid() && io == IoPoll
      modifies this, pingADC, pingDAC
      ensures Valid()
      ensures old(faulted) ==> unchanged(this) && unchanged(pingADC, pingDAC)
      ensures !old(faulted) ==> State() == old(State()).(dacOut := old(dacOut) + [cb(sample)])
      ensures !old(faulted) ==> pingADC[..] == old(pingADC[..])[0 := sample]
      ensures !old(faulted) ==> pingDAC[..] == old(pingDAC[..])[0 := cb(sample)]
    {
      if faulted { return; }
      ProcessSample(sample, cb);
    }

    /** `ADC14_IRQHandler` in interrupt mode, given whether the end-of-conversion
        flag of memory 0 is among the pending flags, and the conversion result. */
    method AdcInterrupt(int0: bool, sample: U16, cb: SampleCallback)
      requires Valid() && io == IoIntr
      modifies this, pingADC, pingDAC
      ensures Valid()
      ensures old(faulted) || !int0 ==> unchanged(this) && unchanged(pingADC, pingDAC)
      ensures !old(faulted) && int0 ==> State() == old(State()).(dacOut := old(dacOut) + [cb(sample)])
      ensures !old(faulted) && int0 ==> pingADC[..] == old(pingADC[..])[0 := sample]
      ensures !old(faulted) && int0 ==> pingDAC[..] == old(pingDAC[..])[0 := cb(sample)]
    {
      if faulted { return; }
      if int0 {
        ProcessSample(sample, cb);
      }
    }

    // -------------------------------------------------------------------
    // Interrupt handlers

    /** `TA0_N_IRQHandler`. Interrupt mode sends `glbPingDAC[0]` to the DAC;
        block mode sends the current sample of the active DAC array and
        advances the drain (`OnTick`); any other mode is fatal. */
    method TimerTick()
      requires Valid()
      modifies this
      ensures Valid()
      ensures old(faulted) ==> unchanged(this)
      ensures !old(faulted) && old(io) == IoIntr ==>
        State() == old(State()).(dacOut := old(dacOut) + [pingDAC[0]])
      ensures !old(faulted) && old(io) == IoDma ==>
        State() == old(State()).(roles := OnTick(old(SharedRoles())),
          dacOut := old(dacOut) + [DacBuf(old(active))[old(dacIndex)]])
      ensures !old(faulted) && old(io) == IoDma ==> Sys() == Step(old(Sys()), SampleTick)
      ensures !old(faulted) && (old(io) == IoPoll || old(io) == IoUnknown) ==>
        State() == old(State()).(faulted := true)
    {
      if faulted { return; }
      if io == IoIntr {
        dacOut := dacOut + [pingDAC[0]];
      } else if io == IoDma {
        var buf := if active == Ping then pingDAC else pongDAC;
        dacOut := dacOut + [buf[dacIndex]];
        dacIndex := dacIndex + 1;
        if dacIndex == bufLen {
          dacIndex := 0;
          if dacWrite == Ping {
            active := Ping;
          } else {
            active := Pong;
          }
        }
      } else {
        faulted := true;
      }
    }

    /** `DMA_INT1_IRQHandler`: read the channel's alternate-select attribute,
        re-arm the descriptor that has just completed and record its label. */
    method DmaComplete()
      requires Valid()
      modifies this
      ensures Valid()
      ensures old(faulted) ==> unchanged(this)
      ensures !old(faulted) ==> State() == old(State()).(roles := OnDmaComplete(old(SharedRoles()), dmaAlt))
    {
      if faulted { return; }
      if dmaAlt {
        adcWrite := Ping;
      } else {
        adcWrite := Pong;
      }
    }

    /** One transfer of DMA channel 7 in ping-pong mode: the conversion result
        goes into the ADC array the current descriptor targets, at the next
        position. After `glbBUFLEN` transfers the controller switches
        descriptors, toggling the alternate-select attribute, and raises the
        completion interrupt. */
    method DmaTransfer(sample: U16)
      requires Valid() && io == IoDma
      modifies this, pingADC, pongADC
      ensures Valid()
      ensures old(faulted) ==> unchanged(this) && unchanged(pingADC, pongADC)
      ensures !old(faulted) ==>
        AdcBuf(Filling(old(dmaAlt)))[..] == old(AdcBuf(Filling(dmaAlt))[..])[old(fillIndex) := sample]
      ensures !old(faulted) ==> unchanged(AdcBuf(Other(Filling(old(dmaAlt)))))
      ensures !old(faulted) && old(fillIndex) + 1 < old(bufLen) ==>
        State() == old(State()).(fill := old(fillIndex) + 1)
      ensures !old(faulted) && old(fillIndex) + 1 == old(bufLen) ==>
        State() == old(State()).(roles := OnDmaComplete(old(SharedRoles()), !old(dmaAlt)),
          alt := !old(dmaAlt), fill := 0)
      ensures !old(faulted) && old(fillIndex) + 1 == old(bufLen) ==> Sys() == Step(old(Sys()), DmaDone)
    {
      if faulted { return; }
      var buf := if dmaAlt then pongADC else pingADC;
      buf[fillIndex] := sample;
      fillIndex := fillIndex + 1;
      if fillIndex == bufLen {
        fillIndex := 0;
        dmaAlt := !dmaAlt;
        DmaComplete();
      }
    }

    // -------------------------------------------------------------------
    // Profiling

    /** `memset(a, 0, nbytes)` on a sample array. */
    static method ClearBytes(a: array<U16>, nbytes: nat)
      requires nbytes / 2 <= a.Length
      modifies a
      ensures a[..] == Memset16(old(a[..]), nbytes)
    {
      forall i | 0 <= i < nbytes / 2 {
        a[i] := 0;
      }
    }

    /** The timed loop of `xlaudio_measurePerfBuffer`: each trial runs the
        callback on the ping arrays between two calls of `perfLap`. */
    method TimedTrials(prof: Profiler.Profiler, readings: seq<Word>, cycles: array<Word>, cb: BlockCallback)
      requires ArraysOk() && |readings| == 2 * N_MEASUREMENTS && cycles.Length == N_MEASUREMENTS
      modifies pingDAC, prof, cycles
      ensures cycles[..] == Profiler.PairLaps(readings)
      ensures prof.previousSnap == readings[2 * N_MEASUREMENTS - 1]
      ensures pingDAC[..] == Repeat(cb, pingADC[..], old(pingDAC[..]), N_MEASUREMENTS)
    {
      for k := 0 to N_MEASUREMENTS
        invariant pingDAC[..] == Repeat(cb, pingADC[..], old(pingDAC[..]), k)
        invariant cycles[..k] == Profiler.PairLaps(readings)[..k]
        invariant k > 0 ==> prof.previousSnap == readings[2 * k - 1]
      {
        var start := prof.PerfLap(readings[2 * k]);
        ApplyBlock(cb, pingADC, pingDAC);
        cycles[k] := prof.PerfLap(readings[2 * k + 1]);
      }
    }

    /** `xlaudio_measurePerfBuffer`. After the 11 overhead trials an
        unconfigured buffer length is fatal; otherwise the first 64 samples of
        the ping ADC and DAC arrays are cleared (the clear counts `MAXPPLEN`
        bytes, not samples) and the callback is timed 11 times on them. */
    method MeasurePerfBuffer(prof: Profiler.Profiler, readings: seq<Word>, cb: BlockCallback)
      returns (r: Option<Word>)
      requires Valid() && |readings| == 4 * N_MEASUREMENTS
      modifies this, pingADC, pingDAC, prof
      ensures Valid()
      ensures old(faulted) ==> r == None && unchanged(this) && unchanged(pingADC, pingDAC, prof)
      ensures !old(faulted) && old(bufLen) == 0 ==>
        r == None && State() == old(State()).(faulted := true) && unchanged(pingADC, pingDAC) &&
        prof.previousSnap == readings[2 * N_MEASUREMENTS - 1]
      ensures !old(faulted) && old(bufLen) != 0 ==>
        r == Some(Profiler.MeasuredLatency(readings)) && State() == old(State()) &&
        pingADC[..] == Memset16(old(pingADC[..]), MAXPPLEN) &&
        pingDAC[..] == Repeat(cb, pingADC[..], Memset16(old(pingDAC[..]), MAXPPLEN), N_MEASUREMENTS) &&
        prof.previousSnap == readings[4 * N_MEASUREMENTS - 1]
    {
      if faulted { return None; }
      var overhead := new Word[N_MEASUREMENTS];
      prof.Trials(readings[..2 * N_MEASUREMENTS], overhead);
      if bufLen == 0 {
        faulted := true;
        return None;
      }
      var d := TimeBlockCallback(prof, readings[2 * N_MEASUREMENTS..], overhead, cb);
      r := Some(d);
    }

    /** The part of `xlaudio_measurePerfBuffer` after the length check: clear
        the ping arrays, time the callback 11 times, subtract the medians. */
    method TimeBlockCallback(prof: Profiler.Profiler, readings: seq<Word>, overhead: array<Word>, cb: BlockCallback)
      returns (d: Word)
      requires ArraysOk() && |readings| == 2 * N_MEASUREMENTS && overhead.Length == N_MEASUREMENTS
      modifies pingADC, pingDAC, prof, overhead
      ensures d == Sub32(MedianOf(Profiler.PairLaps(readings)), MedianOf(old(overhead[..])))
      ensures pingADC[..] == Memset16(old(pingADC[..]), MAXPPLEN)
      ensures pingDAC[..] == Repeat(cb, pingADC[..], Memset16(old(pingDAC[..]), MAXPPLEN), N_MEASUREMENTS)
      ensures prof.previousSnap == readings[2 * N_MEASUREMENTS - 1]
    {
      ClearBytes(pingADC, MAXPPLEN);
      ClearBytes(pingDAC, MAXPPLEN);
      var cycles := new Word[N_MEASUREMENTS];
      TimedTrials(prof, readings, cycles, cb);
      var mc := Median(cycles);
      var mo := Median(overhead);
      d := Sub32(mc, mo);
    }
  }
}

=== FILE: profiler.dfy ===
/** The cycle profiler: `perfLap` and `xlaudio_measurePerfSample`.

    Timer32 counts down, so the cycles between two readings are the earlier
    reading minus the later one, modulo 2^32. The counter readings are
    parameters: `readings[i]` is what the i-th call of `perfLap` reads. */
module Profiler {
  import opened Words
  import opened Sorting

  /** The 11 laps one measurement loop stores: every iteration calls `perfLap`
      twice and keeps the second result. */
  function PairLaps(readings: seq<Word>): (laps: seq<Word>)
    requires |readings| == 2 * N_MEASUREMENTS
    ensures |laps| == N_MEASUREMENTS
  {
    seq(N_MEASUREMENTS, k requires 0 <= k < N_MEASUREMENTS => Sub32(readings[2 * k], readings[2 * k + 1]))
  }

  /** The value both measure functions return for 44 counter readings: the
      first 22 time the overhead trials, the last 22 the callback trials. */
  function MeasuredLatency(readings: seq<Word>): Word
    requires |readings| == 4 * N_MEASUREMENTS
  {
    Sub32(MedianOf(PairLaps(readings[2 * N_MEASUREMENTS..])),
          MedianOf(PairLaps(readings[..2 * N_MEASUREMENTS])))
  }

  /** Overhead cancellation: if at least 6 overhead trials took `o` cycles and
      at least 6 callback trials took `o + c` cycles, the result is `c`,
      whatever the other trials (the outliers) measured. */
  lemma OverheadCancels(readings: seq<Word>, o: Word, c: Word)
    requires |readings| == 4 * N_MEASUREMENTS && o + c < TWO_32
    requires Close(multiset(PairLaps(readings[..2 * N_MEASUREMENTS])))
    requires Close(multiset(PairLaps(readings[2 * N_MEASUREMENTS..])))
    requires CountIn(PairLaps(readings[..2 * N_MEASUREMENTS]), o, o) >= 6
    requires CountIn(PairLaps(readings[2 * N_MEASUREMENTS..]), o + c, o + c) >= 6
    ensures MeasuredLatency(readings) == c
  {
    MedianOfMajority(PairLaps(readings[..2 * N_MEASUREMENTS]), o);
    MedianOfMajority(PairLaps(readings[2 * N_MEASUREMENTS..]), o + c);
  }

  /** The profiler's only state: the `static previousSnap` of `perfLap`. */
  class Profiler {
    var previousSnap: Word

    /** Static storage starts at zero. */
    constructor ()
      ensures previousSnap == 0
    {
      previousSnap := 0;
    }

    /** `perfLap`: cycles since the previous call, given the counter reading
        `currentSnap`. */
    method PerfLap(currentSnap: Word) returns (ret: Word)
      modifies this
      ensures ret == Sub32(old(previousSnap), currentSnap)
      ensures previousSnap == currentSnap
    {
      ret := Sub32(previousSnap, currentSnap);
      previousSnap := currentSnap;
    }

    /** One measurement loop with nothing timed between the two laps:
        `for (k...) { perfLap(); laps[k] = perfLap(); }`. */
    method Trials(readings: seq<Word>, laps: array<Word>)
      requires |readings| == 2 * N_MEASUREMENTS && laps.Length == N_MEASUREMENTS
      modifies this, laps
      ensures laps[..] == PairLaps(readings)
      ensures previousSnap == readings[2 * N_MEASUREMENTS - 1]
    {
      for k := 0 to N_MEASUREMENTS
        invariant laps[..k] == PairLaps(readings)[..k]
        invariant k > 0 ==> previousSnap == readings[2 * k - 1]
      {
        var start := PerfLap(readings[2 * k]);
        laps[k] := PerfLap(readings[2 * k + 1]);
      }
    }

    /** `xlaudio_measurePerfSample`: the median of 11 timed callback trials
        minus the median of 11 empty trials, as a `uint32_t`. The callback's
        output is discarded; only the counter readings around it matter. */
    method MeasurePerfSample(readings: seq<Word>) returns (r: Word)
      requires |readings| == 4 * N_MEASUREMENTS
      modifies this
      ensures r == MeasuredLatency(readings)
      ensures previousSnap == readings[4 * N_MEASUREMENTS - 1]
    {
      var overhead := new Word[N_MEASUREMENTS];
      var cycles := new Word[N_MEASUREMENTS];
      Trials(readings[..2 * N_MEASUREMENTS], overhead);
      ghost var laps := overhead[..];
      Trials(readings[2 * N_MEASUREMENTS..], cycles);
      assert overhead[..] == laps;
      var mc := Median(cycles);
      var mo := Median(overhead);
      r := Sub32(mc, mo);
    }
  }
}

=== FILE: sorting.dfy ===
/** `comp_uint32` and `median`: the profiler sorts its 11 trials in place with
    `qsort` and this comparator, then takes the middle element.

    The sort is specified by `CompSort`, an insertion sort driven by the same
    comparator. When every two trials differ by less than 2^31 the comparator
    agrees with `<`, `CompSort` yields the ascending permutation of its input
    (which is unique, so any correct sort gives the same array), and the middle
    element has at least 6 of the 11 trials on each side. */
module Sorting {
  import opened Words

  const N_MEASUREMENTS: nat := 11

  /** `comp_uint32(a, b)`: the unsigned difference converted to `int`. */
  function CompUint32(a: Word, b: Word): (r: int)
    ensures -TWO_31 <= r < TWO_31
    ensures -TWO_31 < a - b < TWO_31 ==> (r < 0 <==> a < b) && (r == 0 <==> a == b)
  {
    ToInt32(Sub32(a, b))
  }

  /** Two trials more than 2^31 apart are ordered the wrong way round: the
      larger one ranks first. */
  lemma CompUint32FarApart(a: Word, b: Word)
    requires a - b > TWO_31
    ensures CompUint32(a, b) < 0 && CompUint32(b, a) > 0
  {
  }

  /** Two trials exactly 2^31 apart each rank before the other. */
  lemma CompUint32HalfApart(a: Word, b: Word)
    requires a - b == TWO_31
    ensures CompUint32(a, b) < 0 && CompUint32(b, a) < 0
  {
  }

  /** Every two values of `m` differ by less than 2^31. */
  ghost predicate Close(m: multiset<Word>)
  {
    forall a, b :: a in m && b in m ==> -TWO_31 < a - b < TWO_31
  }

  ghost predicate Ascending(s: seq<Word>)
  {
    forall i, j :: 0 <= i < j < |s| ==> s[i] <= s[j]
  }

  /** Insert `x` into `t` by moving it left past every element the comparator
      ranks above it. */
  function Insert(t: seq<Word>, x: Word): (r: seq<Word>)
    ensures |r| == |t| + 1
    ensures multiset(r) == multiset(t) + multiset{x}
    decreases |t|
  {
    if t == [] then [x]
    else if CompUint32(t[|t| - 1], x) > 0 then
      assert t == t[..|t| - 1] + [t[|t| - 1]];
      Insert(t[..|t| - 1], x) + [t[|t| - 1]]
    else t + [x]
  }

  /** The array `qsort(arr, n, sizeof(uint32_t), comp_uint32)` leaves. */
  function CompSort(s: seq<Word>): (r: seq<Word>)
    ensures |r| == |s|
    ensures multiset(r) == multiset(s)
    decreases |s|
  {
    if s == [] then []
    else
      assert s == s[..|s| - 1] + [s[|s| - 1]];
      Insert(CompSort(s[..|s| - 1]), s[|s| - 1])
  }

  /** `median(arr)` as a value: element 5 of the sorted trials. */
  function MedianOf(s: seq<Word>): Word
    requires |s| == N_MEASUREMENTS
  {
    CompSort(s)[N_MEASUREMENTS / 2]
  }

  lemma CloseSub(m: multiset<Word>, n: multiset<Word>)
    requires Close(m) && n <= m
    ensures Close(n)
  {
  }

  /** On close values the comparator ranks `a` above `b` only when `a > b`. */
  lemma CloseOrder(m: multiset<Word>, a: Word, b: Word)
    requires Close(m) && a in m && b in m
    ensures CompUint32(a, b) > 0 <==> a > b
  {
  }

  /** Inserting never introduces a value above a common bound. */
  lemma InsertBounded(t: seq<Word>, x: Word, hi: int)
    requires forall i :: 0 <= i < |t| ==> t[i] <= hi
    requires x <= hi
    ensures forall i :: 0 <= i < |Insert(t, x)| ==> Insert(t, x)[i] <= hi
  {
    var u := Insert(t, x);
    forall i | 0 <= i < |u|
      ensures u[i] <= hi
    {
      assert u[i] in multiset(u);
      if u[i] != x {
        assert u[i] in multiset(t);
      }
    }
  }

  lemma {:induction false} InsertAscending(t: seq<Word>, x: Word)
    requires Ascending(t) && Close(multiset(t) + multiset{x})
    ensures Ascending(Insert(t, x))
    decreases |t|
  {
    if t != [] {
      var last := t[|t| - 1];
      var init := t[..|t| - 1];
      CloseSplit(t, x);
      if CompUint32(last, x) > 0 {
        InsertAscending(init, x);
        InsertBounded(init, x, last);
        AscendingSnoc(Insert(init, x), last);
      } else {
        forall i | 0 <= i < |t|
          ensures t[i] <= x
        {
          assert t[i] <= last;
        }
        AscendingSnoc(t, x);
      }
    }
  }

  /** Taking the last element off keeps the values close, and on the last
      element the comparator agrees with `>`. */
  lemma CloseSplit(t: seq<Word>, x: Word)
    requires t != [] && Close(multiset(t) + multiset{x})
    ensures Close(multiset(t[..|t| - 1]) + multiset{x})
    ensures CompUint32(t[|t| - 1], x) > 0 <==> t[|t| - 1] > x
  {
    assert t == t[..|t| - 1] + [t[|t| - 1]];
    CloseOrder(multiset(t) + multiset{x}, t[|t| - 1], x);
    CloseSub(multiset(t) + multiset{x}, multiset(t[..|t| - 1]) + multiset{x});
  }

  /** Appending a value no smaller than every element keeps a sequence ascending. */
  lemma AscendingSnoc(u: seq<Word>, y: Word)
    requires Ascending(u)
    requires forall i :: 0 <= i < |u| ==> u[i] <= y
    ensures Ascending(u + [y])
  {
  }

  /** On pairwise-close inputs the comparator sort is an ascending permutation. */
  lemma {:induction false} CompSortAscending(s: seq<Word>)
    requires Close(multiset(s))
    ensures Ascending(CompSort(s))
    decreases |s|
  {
    if s != [] {
      var init := s[..|s| - 1];
      assert s == init + [s[|s| - 1]];
      CloseSub(multiset(s), multiset(init));
      CompSortAscending(init);
      InsertAscending(CompSort(init), s[|s| - 1]);
    }
  }

  // ---------------------------------------------------------------------
  // Counting how many trials fall in a range.

  /** The number of elements of `s` in [lo, hi]. */
  function CountIn(s: seq<Word>, lo: int, hi: int): (n: nat)
    ensures n <= |s|
    decreases |s|
  {
    if s == [] then 0
    else (if lo <= s[0] <= hi then 1 else 0) + CountIn(s[1..], lo, hi)
  }

  lemma {:induction false} CountInAppend(a: seq<Word>, b: seq<Word>, lo: int, hi: int)
    ensures CountIn(a + b, lo, hi) == CountIn(a, lo, hi) + CountIn(b, lo, hi)
    decreases |a|
  {
    if a == [] {
      assert a + b == b;
    } else {
      assert (a + b)[1..] == a[1..] + b;
      CountInAppend(a[1..], b, lo, hi);
    }
  }

  lemma {:induction false} CountInAll(a: seq<Word>, lo: int, hi: int)
    requires forall i :: 0 <= i < |a| ==> lo <= a[i] <= hi
    ensures CountIn(a, lo, hi) == |a|
    decreases |a|
  {
    if a != [] {
      CountInAll(a[1..], lo, hi);
    }
  }

  lemma {:induction false} CountInNone(a: seq<Word>, lo: int, hi: int)
    requires forall i :: 0 <= i < |a| ==> !(lo <= a[i] <= hi)
    ensures CountIn(a, lo, hi) == 0
    decreases |a|
  {
    if a != [] {
      CountInNone(a[1..], lo, hi);
    }
  }

  /** Counting does not depend on the order of the elements. */
  lemma {:induction false} CountInPermutation(s: seq<Word>, t: seq<Word>, lo: int, hi: int)
    requires multiset(s) == multiset(t)
    ensures CountIn(s, lo, hi) == CountIn(t, lo, hi)
    decreases |s|
  {
    if s == [] {
      assert |t| == |multiset(t)| == 0;
    } else {
      var k := IndexOf(t, s[0]);
      var rest := t[..k] + t[k + 1..];
      MultisetRemove(t, k);
      MultisetTail(s);
      CountInPermutation(s[1..], rest, lo, hi);
      CountInRemove(t, k, lo, hi);
    }
  }

  lemma MultisetTail(s: seq<Word>)
    requires s != []
    ensures multiset(s[1..]) == multiset(s) - multiset{s[0]}
  {
    assert s == [s[0]] + s[1..];
  }

  lemma IndexOf(t: seq<Word>, x: Word) returns (k: nat)
    requires x in multiset(t)
    ensures k < |t| && t[k] == x
  {
    assert x in t;
    k :| k < |t| && t[k] == x;
  }

  lemma MultisetRemove(t: seq<Word>, k: nat)
    requires k < |t|
    ensures multiset(t[..k] + t[k + 1..]) == multiset(t) - multiset{t[k]}
  {
    assert t == t[..k] + [t[k]] + t[k + 1..];
  }

  lemma CountInRemove(t: seq<Word>, k: nat, lo: int, hi: int)
    requires k < |t|
    ensures CountIn(t, lo, hi)
         == CountIn(t[..k] + t[k + 1..], lo, hi) + (if lo <= t[k] <= hi then 1 else 0)
  {
    assert t == t[..k] + ([t[k]] + t[k + 1..]);
    CountInAppend(t[..k], [t[k]] + t[k + 1..], lo, hi);
    CountInAppend(t[..k], t[k + 1..], lo, hi);
    assert ([t[k]] + t[k + 1..])[1..] == t[k + 1..];
  }

  /** In an ascending run of 11, element 5 has 6 elements on each side. */
  lemma SortedRank(u: seq<Word>)
    requires |u| == N_MEASUREMENTS && Ascending(u)
    ensures CountIn(u, 0, u[5]) >= 6
    ensures CountIn(u, u[5], TWO_32 - 1) >= 6
  {
    var m := u[5];
    assert u == u[..6] + u[6..];
    assert u == u[..5] + u[5..];
    CountInAppend(u[..6], u[6..], 0, m);
    CountInAll(u[..6], 0, m);
    CountInAppend(u[..5], u[5..], m, TWO_32 - 1);
    CountInAll(u[5..], m, TWO_32 - 1);
  }

  /** In an ascending run of 11, a value held by 6 elements is element 5. */
  lemma SortedMajority(u: seq<Word>, v: Word)
    requires |u| == N_MEASUREMENTS && Ascending(u)
    requires CountIn(u, v, v) >= 6
    ensures u[5] == v
  {
    if u[5] < v {
      assert u == u[..6] + u[6..];
      CountInAppend(u[..6], u[6..], v, v);
      CountInNone(u[..6], v, v);
    } else if u[5] > v {
      assert u == u[..5] + u[5..];
      CountInAppend(u[..5], u[5..], v, v);
      CountInNone(u[5..], v, v);
    }
  }

  /** At least 6 of the 11 trials are at most the median and at least 6 are at
      least the median. */
  lemma MedianRank(s: seq<Word>)
    requires |s| == N_MEASUREMENTS && Close(multiset(s))
    ensures CountIn(s, 0, MedianOf(s)) >= 6
    ensures CountIn(s, MedianOf(s), TWO_32 - 1) >= 6
  {
    var u := CompSort(s);
    CompSortAscending(s);
    SortedRank(u);
    CountInPermutation(s, u, 0, u[5]);
    CountInPermutation(s, u, u[5], TWO_32 - 1);
  }

  /** Outlier tolerance: when at least 6 of the 11 trials have the same value,
      that value is the median, whatever the other 5 are. */
  lemma MedianOfMajority(s: seq<Word>, v: Word)
    requires |s| == N_MEASUREMENTS && Close(multiset(s))
    requires CountIn(s, v, v) >= 6
    ensures MedianOf(s) == v
  {
    var u := CompSort(s);
    CompSortAscending(s);
    CountInPermutation(s, u, v, v);
    SortedMajority(u, v);
  }

  // ---------------------------------------------------------------------
  // The in-place sort and `median`.

  /** `qsort(a, a.Length, sizeof(uint32_t), comp_uint32)`, as an in-place
      insertion sort with the same comparator. */
  method SortInPlace(a: array<Word>)
    modifies a
    ensures a[..] == CompSort(old(a[..]))
  {
    ghost var s := a[..];
    var i := 0;
    while i < a.Length
      invariant 0 <= i <= a.Length == |s|
      invariant a[..] == CompSort(s[..i]) + s[i..]
    {
      SortedPrefixSplit(CompSort(s[..i]), s, i);
      InsertLast(a, i);
      CompSortSnoc(s, i);
      i := i + 1;
    }
    SortedPrefixDone(a[..], s);
  }

  /** The array during the outer loop: a sorted prefix `c` of length `i`
      followed by the untouched suffix of the input. */
  lemma SortedPrefixSplit(c: seq<Word>, s: seq<Word>, i: nat)
    requires i < |s| && |c| == i
    ensures (c + s[i..])[..i] == c && (c + s[i..])[i] == s[i] && (c + s[i..])[i + 1..] == s[i + 1..]
  {
    assert s[i..] == [s[i]] + s[i + 1..];
  }

  lemma SortedPrefixDone(cur: seq<Word>, s: seq<Word>)
    requires cur == CompSort(s[..|s|]) + s[|s|..]
    ensures cur == CompSort(s)
  {
    assert s[|s|..] == [];
    assert s[..|s|] == s;
  }

  /** The inner loop: move `a[i]` left into the prefix `a[..i]`. */
  method InsertLast(a: array<Word>, i: nat)
    requires i < a.Length
    modifies a
    ensures a[..] == Insert(old(a[..i]), old(a[i])) + old(a[i + 1..])
  {
    ghost var t := a[..i];
    ghost var x: Word := a[i];
    ghost var rest := a[i + 1..];
    LoopEntry(a[..], i);
    var j := i;
    while j > 0 && CompUint32(a[j - 1], a[j]) > 0
      invariant 0 <= j <= i == |t|
      invariant a[..] == t[..j] + [x] + t[j..] + rest
      invariant Insert(t, x) == Insert(t[..j], x) + t[j..]
    {
      ghost var before := a[..];
      LoopStep(t, j, x, rest, before);
      a[j - 1], a[j] := a[j], a[j - 1];
      assert a[..] == before[j - 1 := before[j]][j := before[j - 1]];
      j := j - 1;
    }
    LoopExit(t, j, x, rest, a[..]);
  }

  /** Before the inner loop: the prefix, the element to insert, the rest. */
  lemma LoopEntry(cur: seq<Word>, i: nat)
    requires i < |cur|
    ensures cur == cur[..i][..i] + [cur[i]] + cur[..i][i..] + cur[i + 1..]
    ensures Insert(cur[..i], cur[i]) == Insert(cur[..i][..i], cur[i]) + cur[..i][i..]
  {
    assert cur[..i][..i] == cur[..i] && cur[..i][i..] == [];
    assert cur == cur[..i] + [cur[i]] + cur[i + 1..];
  }

  /** After the inner loop: the element sits where the insertion puts it. */
  lemma LoopExit(t: seq<Word>, j: nat, x: Word, rest: seq<Word>, cur: seq<Word>)
    requires j <= |t| && cur == t[..j] + [x] + t[j..] + rest
    requires Insert(t, x) == Insert(t[..j], x) + t[j..]
    requires j == 0 || CompUint32(cur[j - 1], cur[j]) <= 0
    ensures cur == Insert(t, x) + rest
  {
    ConcatAt(t, j, x, rest);
    InsertStops(t, j, x);
  }

  /** What one swap of the inner loop does to the array's contents and to the
      insertion it is carrying out. */
  lemma LoopStep(t: seq<Word>, j: nat, x: Word, rest: seq<Word>, before: seq<Word>)
    requires 0 < j <= |t| && before == t[..j] + [x] + t[j..] + rest
    requires CompUint32(before[j - 1], before[j]) > 0
    requires Insert(t, x) == Insert(t[..j], x) + t[j..]
    ensures before[j - 1 := before[j]][j := before[j - 1]] == t[..j - 1] + [x] + t[j - 1..] + rest
    ensures Insert(t, x) == Insert(t[..j - 1], x) + t[j - 1..]
  {
    ConcatAt(t, j, x, rest);
    InsertStep(t, j, x);
    SwapLeft(t, j, x, rest);
  }

  /** One step of the inner loop: moving past `t[j - 1]`. */
  lemma InsertStep(t: seq<Word>, j: nat, x: Word)
    requires 0 < j <= |t| && CompUint32(t[j - 1], x) > 0
    ensures Insert(t[..j], x) + t[j..] == Insert(t[..j - 1], x) + t[j - 1..]
  {
    assert t[..j][..j - 1] == t[..j - 1];
    assert t[..j][j - 1] == t[j - 1];
    assert t[j - 1..] == [t[j - 1]] + t[j..];
  }

  /** The swap of the inner loop, on the array's contents. */
  lemma SwapLeft(t: seq<Word>, j: nat, x: Word, rest: seq<Word>)
    requires 0 < j <= |t|
    ensures (t[..j] + [x] + t[j..] + rest)[j - 1 := x][j := t[j - 1]]
         == t[..j - 1] + [x] + t[j - 1..] + rest
  {
  }

  lemma ConcatAt(t: seq<Word>, j: nat, x: Word, rest: seq<Word>)
    requires j <= |t|
    ensures (t[..j] + [x] + t[j..] + rest)[j] == x
    ensures j > 0 ==> (t[..j] + [x] + t[j..] + rest)[j - 1] == t[j - 1]
  {
  }

  /** The inner loop stops where the comparator no longer ranks the left
      neighbour above `x`. */
  lemma InsertStops(t: seq<Word>, j: nat, x: Word)
    requires j <= |t|
    requires j == 0 || CompUint32(t[j - 1], x) <= 0
    ensures Insert(t[..j], x) == t[..j] + [x]
  {
    if j > 0 {
      assert t[..j][j - 1] == t[j - 1];
    }
  }

  lemma CompSortSnoc(s: seq<Word>, i: nat)
    requires i < |s|
    ensures CompSort(s[..i + 1]) == Insert(CompSort(s[..i]), s[i])
  {
    assert s[..i + 1][..i] == s[..i];
  }

  /** `median(arr)`: sorts `arr` in place and returns its middle element. */
  method Median(arr: array<Word>) returns (m: Word)
    requires arr.Length == N_MEASUREMENTS
    modifies arr
    ensures arr[..] == CompSort(old(arr[..]))
    ensures m == arr[N_MEASUREMENTS / 2] == MedianOf(old(arr[..]))
  {
    SortInPlace(arr);
    m := arr[N_MEASUREMENTS / 2];
  }
}

=== FILE: words.dfy ===
/** Fixed-width unsigned integers of the MSP432 C code, written out explicitly:
    `uint16_t` samples, buffer indices and lengths, and `uint32_t` cycle counts. */
module Words {

  const TWO_16: int := 0x1_0000
  const TWO_31: int := 0x8000_0000
  const TWO_32: int := 0x1_0000_0000

  /** A `uint16_t` value: an audio sample, an index or a length. */
  type U16 = x: int | 0 <= x < TWO_16

  /** A `uint32_t` value: a Timer32 reading or a cycle count. */
  type Word = x: int | 0 <= x < TWO_32

  datatype Option<+T> = None | Some(value: T)

  /** Unsigned 32-bit subtraction `a - b`, which wraps modulo 2^32 in C. */
  function Sub32(a: Word, b: Word): (r: Word)
    ensures (b + r) % TWO_32 == a
    ensures a >= b ==> r == a - b
    ensures a < b ==> r == a - b + TWO_32
  {
    (a - b) % TWO_32
  }

  /** Conversion of a `uint32_t` to a 32-bit `int` on a two's complement target:
      values of 2^31 and above become negative. */
  function ToInt32(w: Word): (r: int)
    ensures -TWO_31 <= r < TWO_31
    ensures r % TWO_32 == w
  {
    if w < TWO_31 then w else w - TWO_32
  }
}
